=== FILE: README.md ===
# A model of the Prisma accessor codemod and the admin accessibility helpers

Two parts of the NextAccounting code base are modelled here.

**The rename codemod** (`scripts/fix-prisma-models.js`). The script renames Prisma client accessors such as `prisma.user` to table-style names such as `prisma.users` in every source file. It holds a table of 51 `singular → plural` accessor names. For each file, and for each table entry in insertion order, it does two steps:

- it counts the matches of `\bprisma\.<singular>\b` and, if there are any, replaces them all with `prisma.<plural>`;
- then it does the same for `\btx\.<singular>\b` (transaction clients).

A file whose count is positive is written back and reported with its count. The running total is the sum of those counts.

The model is split into three modules:

- `WordMatch.dfy`: the word-bounded literal pattern. It defines one match attempt (`MatchAt`), the left-to-right non-overlapping scan of a global regular expression (`Occurrences`), the count (`CountMatches`) and the global replacement (`ReplaceAll`). It also holds the proofs about them: the gap decomposition, and why replacing one accessor neither creates nor removes a match of another accessor (`ReplaceAllKeepsClean`, `ReplaceAllKeepsCount`). That proof needs three conditions. Every receiver and name must be an identifier. No name may equal a receiver. The other accessor must differ from both the replaced accessor and its replacement.
- `RenameTable.dfy`: the 51 entries, with a proof that the table is *well formed*. All names are identifiers. No name is `prisma` or `tx`. No plural is also a singular. A separate proof shows that no two entries share a singular, as the keys of an object cannot.
- `FixPrismaModels.dfy`: one count-then-replace step (`Pass`), the two steps of one entry (`ApplyRename`), the per-file loop (`RewriteFile`) and the run over all files (`Run`). The two loops are proved against specification functions (`RewriteWith`, `RunOver`). The properties are proved about those functions:
  - count and change agree;
  - the count of a file is the number of matches of the table's patterns in the file as it was read (`TableCount`), although each step scans the text the step before produced;
  - entries apply in order;
  - the rewrite is idempotent;
  - exactly the changed files are written and reported;
  - each reported count is that file's own count, results follow the order of the file list, and no path is reported twice;
  - the total is the sum of the reported counts;
  - a second run changes nothing.

  `RewriteFile` and `Run` take the table as a parameter. The script is `Run(Renames, …)`, and `RenamesWellFormed` shows that its table meets the hypothesis of the idempotence and reporting lemmas. `ScriptRun` puts these together for the script's own table.

**The accessibility helpers** (`src/app/admin/users/utils/accessibility.ts`) are modelled in `Accessibility.dfy`:

- the ARIA label builders for filters (`FilterAriaLabel`), table headers (`TableHeaderAriaLabel`), pagination buttons (`PaginationAriaLabel`) and row-action menus (`RowActionAriaLabel`);
- the Enter/Space key handler;
- `validateAria`, over the attributes of an element that it reads;
- `createAccessibilityAttrs`;
- the Tab/Shift+Tab wrap rule of the focus trap.

## Model

| member | source | states |
|---|---|---|
| WordMatch.OccurrencesFromSound | scripts/fix-prisma-models.js:72-73 | every position the global scan reports is a word-bounded occurrence of the pattern |
| WordMatch.OccurrencesFromFirst | scripts/fix-prisma-models.js:72-73 | the first reported position is the leftmost match at or after i: if the pattern matches at p >= i, the scan reports some position, and the first one is at most p (a match overlapping a reported one is skipped, as with JavaScript's global `match`) |
| WordMatch.CountZeroIffClean | scripts/fix-prisma-models.js:73-74 | the match count is zero exactly when the pattern matches nowhere in the text |
| WordMatch.ReplaceAllWithoutMatches | scripts/fix-prisma-models.js:74-75 | with no match, the replacement returns the text unchanged, so the `> 0` guard never changes the text |
| WordMatch.ReplaceAllDecomposition | scripts/fix-prisma-models.js:72-76 | the text is a list of gaps joined by the pattern, the output is the same gaps joined by the replacement, and there is one gap more than the count: the count is the number of occurrences replaced, and text outside them is kept |
| WordMatch.AccessMatchAt | scripts/fix-prisma-models.js:72 | `\bprisma\.<name>\b` matches at i exactly when the window equals the accessor and the characters on either side (if any) are not word characters |
| WordMatch.Sandwich | scripts/fix-prisma-models.js:72-83 | in a text with one accessor in the middle, another accessor whose word runs cannot line up with it matches only inside the parts on either side |
| WordMatch.ReplaceAllClears | scripts/fix-prisma-models.js:72-75 | after `<root>.<name>` is replaced by `<root>.<newName>`, `<root>.<name>` matches nowhere |
| WordMatch.CountSandwich | scripts/fix-prisma-models.js:72-73 | in a text with one accessor in the middle, the matches of another accessor whose word runs cannot line up with it are the matches in the part before plus those in the part after |
| WordMatch.JoinCount | scripts/fix-prisma-models.js:72-75 | the matches of such an accessor in gaps joined by the replaced or the replacement accessor are the sum of its matches in the gaps |
| WordMatch.ReplaceAllKeepsCount | scripts/fix-prisma-models.js:70-85 | under the conditions of `ReplaceAllKeepsClean`, replacing `<root>.<name>` by `<root>.<newName>` keeps the number of matches of `<qr>.<qn>` exactly |
| WordMatch.ReplaceAllKeepsClean | scripts/fix-prisma-models.js:70-85 | replacing `<root>.<name>` by `<root>.<newName>` creates no match of another accessor `<qr>.<qn>` that did not match before. This holds when all five parts are identifiers, `<qr>.<qn>` differs from both `<root>.<name>` and `<root>.<newName>`, `qn` is not `root`, and `qr` is neither `name` nor `newName` |
| RenameTable.ReceiversAreWords | scripts/fix-prisma-models.js:72-80 | `prisma` and `tx` are identifiers and differ |
| RenameTable.RenamesSingularsDistinct | scripts/fix-prisma-models.js:5-57 | no two entries of the table share a singular |
| RenameTable.RenamesWellFormed | scripts/fix-prisma-models.js:5-57 | the table has 51 entries; every singular and plural is an identifier; none is `prisma` or `tx`; no plural equals any singular |
| FixPrismaModels.FirstEntry | scripts/fix-prisma-models.js:6 | the first entry renames `user` to `users` |
| FixPrismaModels.Pass | scripts/fix-prisma-models.js:72-77 | one count-then-replace step yields the global replacement whether or not the guard fires |
| FixPrismaModels.CountAndReplace | scripts/fix-prisma-models.js:72-77 | the method's text and count are those of `Pass` for that receiver and entry |
| FixPrismaModels.PassDecomposition | scripts/fix-prisma-models.js:72-85 | the count a step adds is the number of occurrences it replaces, and the rest of the text is kept |
| FixPrismaModels.RewriteFile | scripts/fix-prisma-models.js:67-86 | the inner loop ends with the text and the count of the specification fold over the table: entries in order, `prisma` before `tx`, counts added up |
| FixPrismaModels.FoldAppend | scripts/fix-prisma-models.js:70-86 | order of application: folding over a + b is folding over a, then over b from its output, with the counts summed |
| FixPrismaModels.RewriteWithZero | scripts/fix-prisma-models.js:68-86 | a file count of zero means the text is unchanged |
| FixPrismaModels.RewriteWithClean | scripts/fix-prisma-models.js:70-86 | a text that no pattern of the table matches is left as is with count zero |
| FixPrismaModels.PassKeepsClean | scripts/fix-prisma-models.js:72-85 | a step clears its own pattern and keeps every clear pattern of a well-formed table clear |
| FixPrismaModels.ApplyRenameKeepsClean | scripts/fix-prisma-models.js:70-86 | after an entry's two steps, both its patterns are clear, and every pattern that was clear stays clear |
| FixPrismaModels.RewriteWithCleans | scripts/fix-prisma-models.js:70-86 | after the whole table is applied, no pattern of a well-formed table matches the output |
| FixPrismaModels.RewriteIdempotent | scripts/fix-prisma-models.js:67-86 | rewriting the rewritten text again changes nothing and counts zero |
| FixPrismaModels.PassKeepsCount | scripts/fix-prisma-models.js:72-85 | a step for an entry of a well-formed table keeps the number of matches of every accessor `<receiver>.<n>` other than its own singular and plural patterns |
| FixPrismaModels.RewriteKeepsCount | scripts/fix-prisma-models.js:70-86 | applying entries of a well-formed table keeps the number of matches of an accessor whose name is none of their singulars and plurals |
| FixPrismaModels.ApplyRenameCounts | scripts/fix-prisma-models.js:71-85 | an entry's two steps count the matches its two patterns had in the text as read, when the entries before kept those counts |
| FixPrismaModels.RewriteCountsMatches | scripts/fix-prisma-models.js:67-86 | with a well-formed table whose singulars are distinct, the file count is `TableCount`: the number of matches of every `prisma.<singular>` and `tx.<singular>` in the file as it was read |
| FixPrismaModels.RewriteCountsChanges | scripts/fix-prisma-models.js:67-91 | the file count is positive exactly when the text changes, so files are written only when their text changed |
| FixPrismaModels.UserEntryWordBounded | scripts/fix-prisma-models.js:72-74 | the table's first entry (`user`, line 6) leaves `prisma.userProfile`, `prisma.users` and `myprisma.user` alone with count zero |
| FixPrismaModels.UserEntryRewrites | scripts/fix-prisma-models.js:72-76 | the table's first entry (`user`, line 6) turns `prisma.user` into `prisma.users` with count one |
| FixPrismaModels.Step | scripts/fix-prisma-models.js:88-92 | one file's iteration never adds or removes a path |
| FixPrismaModels.RunOver | scripts/fix-prisma-models.js:66-93 | the run never adds or removes a path |
| FixPrismaModels.Run | scripts/fix-prisma-models.js:63-93 | the outer loop ends with the `results`, `totalReplacements` and files of the specification run |
| FixPrismaModels.RewriterSettles | scripts/fix-prisma-models.js:67-86 | the per-file rewrite of a well-formed table settles after one application and counts exactly the changes |
| FixPrismaModels.RunTotals | scripts/fix-prisma-models.js:88-92 | `totalReplacements` is the sum of the reported counts, and every reported count is positive |
| FixPrismaModels.RunFiles | scripts/fix-prisma-models.js:66-93 | for a rewrite that settles (`Settles`) and whose count is positive exactly when the text changes (`CountsChanges`): after the run, every listed file holds its rewritten text and every other file is unchanged, even for a path listed twice |
| FixPrismaModels.RunReportsChangedFiles | scripts/fix-prisma-models.js:88-92 | for a rewrite with `Settles` and `CountsChanges`: a file is reported exactly when it is listed and its rewrite changes it, which is exactly when its content on disk changed |
| FixPrismaModels.RunUntouched | scripts/fix-prisma-models.js:66-93 | a file the run is not given keeps its content |
| FixPrismaModels.RunResults | scripts/fix-prisma-models.js:66-92 | with every path listed once, `results` is exactly the files whose rewrite count is positive, in the order of `files`, each with that file's own count (`Expected`) |
| FixPrismaModels.RunReportsOnce | scripts/fix-prisma-models.js:66-92 | for a rewrite that settles (`Settles`) and whose count is positive exactly when the text changes (`CountsChanges`), no path is reported twice even when it is listed twice, and every reported count is that file's own rewrite count from its original content |
| FixPrismaModels.RunOverFixed | scripts/fix-prisma-models.js:66-93 | a run in which every file rewrites with count zero reports and writes nothing |
| FixPrismaModels.SecondRunFindsNothing | scripts/fix-prisma-models.js:66-93 | for a rewrite with `Settles` and `CountsChanges`: running again over the output finds no replacements, reports no file and writes nothing |
| FixPrismaModels.ScriptRun | scripts/fix-prisma-models.js:5-93 | for the script's own table: totals agree, exactly the changed files are written and reported, no path is reported twice, each reported count is the number of matches of the table's patterns in the file as read (`TableCount`), with distinct paths the results are the changed files in listed order with their own counts, and a second run changes nothing |
| Accessibility.NatStringValue | src/app/admin/users/utils/accessibility.ts:17 | reading the decimal digits of a number back gives the number |
| Accessibility.IntStringInjective | src/app/admin/users/utils/accessibility.ts:17 | two integers render to the same text exactly when they are equal |
| Accessibility.FilterLabelHidesFlag | src/app/admin/users/utils/accessibility.ts:14-17 | a boolean filter gets `<label> <op>` whatever the boolean, which is a proper prefix of the label any other value gets |
| Accessibility.FilterLabelDistinguishes | src/app/admin/users/utils/accessibility.ts:17 | for other values, the labels are equal exactly when the values render equal; for numbers, exactly when the numbers are equal |
| Accessibility.TableHeaderLabelCases | src/app/admin/users/utils/accessibility.ts:28-31 | "sortable" exactly when not sorted; "sorted ascending" exactly when sorted with `'asc'`; "sorted descending" exactly when sorted with `'desc'` or no direction |
| Accessibility.LookupAction | src/app/admin/users/utils/accessibility.ts:42-49 | a found action is the key it was looked up by |
| Accessibility.LookupActionKey | src/app/admin/users/utils/accessibility.ts:42-49 | every key of the label record is found as its own entry |
| Accessibility.PageLabel | src/app/admin/users/utils/accessibility.ts:42-48 | every entry of the label record is a non-empty string, so the fallback to the action never applies to a key |
| Accessibility.PaginationFallback | src/app/admin/users/utils/accessibility.ts:49 | the label is the action string itself exactly when the action is not a key; for a key it is that key's entry |
| Accessibility.PageLabelPages | src/app/admin/users/utils/accessibility.ts:45-46 | `first` is "Go to first page" whatever the pages; `last` ignores the current page and changes exactly when the rendered total changes |
| Accessibility.PageLabelsDistinct | src/app/admin/users/utils/accessibility.ts:42-48 | entries of different keys are never equal, whatever the pages |
| Accessibility.RowActionRoundTrip | src/app/admin/users/utils/accessibility.ts:55-57 | the item can be read back from its row-action label, and a label that names an item is that item's label |
| Accessibility.HandleAccessibleKeyPress | src/app/admin/users/utils/accessibility.ts:63-73 | handled exactly for Enter or " "; the callback runs once when handled and never otherwise; the default is prevented when handled, and otherwise the event is untouched |
| Accessibility.TrimStart | src/app/admin/users/utils/accessibility.ts:218 | the result is a suffix; everything dropped is white space; the result starts with a non-space or is empty |
| Accessibility.TrimEnd | src/app/admin/users/utils/accessibility.ts:218 | the result is a prefix; everything dropped is white space; the result ends with a non-space or is empty |
| Accessibility.TrimEmpty | src/app/admin/users/utils/accessibility.ts:218 | text trims to nothing exactly when it is all white space |
| Accessibility.AriaIssues | src/app/admin/users/utils/accessibility.ts:207-221 | an element has at most one issue |
| Accessibility.AriaIssuesCases | src/app/admin/users/utils/accessibility.ts:207-221 | "Invalid role: r" exactly for a set, non-empty role r outside the nine; the table issue exactly for role `table` without a row descendant; the button issue exactly for role `button` with no truthy label or labelledby and blank text; no issue exactly when none of these holds |
| Accessibility.ValidateAria | src/app/admin/users/utils/accessibility.ts:190-224 | the pushes of the three checks leave exactly the issues of `AriaIssues`, so at most one is pushed: the three checks exclude one another because `table` and `button` are valid roles |
| Accessibility.CreateAccessibilityAttrs | src/app/admin/users/utils/accessibility.ts:229-239 | `data-qa` always maps to the name; `role` and `aria-label` are present exactly when given as non-empty strings, with those values; there are no other keys |
| Accessibility.CreatedAttrsValidate | src/app/admin/users/utils/accessibility.ts:190-239 | an element carrying the created attributes has no issue exactly when its role is absent or valid, a table has rows, and a button has a label or text |
| Accessibility.FocusTrapKeyDown | src/app/admin/users/utils/accessibility.ts:102-121 | the Escape handler is called exactly for Escape when one is given; focus moves only on Tab, exactly from the first element with Shift (to the last) or from the last without Shift (to the first) |
| Accessibility.FocusStaysInside | src/app/admin/users/utils/accessibility.ts:110-120 | from any focusable element, Tab and Shift+Tab leave focus on a focusable element of the trap |

## Left out

- File discovery is not modelled. `glob.sync` over three patterns (scripts/fix-prisma-models.js:59-61) is replaced by the list `files`. The model's requires is that every listed path exists on the disk map. This is what the globs guarantee, and a missing path would make `readFileSync` throw. The model has no failing I/O. In the script, a read or write that fails for any other reason (permissions, a full disk) also throws and aborts the run, and files already written stay written.
- File reading and writing are a map from path to text. Encodings are not modelled.
- The console summary (scripts/fix-prisma-models.js:95-100) is output only and is not modelled.
- Regular expressions in general are not modelled. Only the shape the script builds is: a literal `<root>.<name>` between two `\b`. Every table name is an identifier (`RenamesWellFormed`), so the concatenated pattern has no metacharacters.
- `$` patterns in replacement strings are not modelled. Replacements are taken literally, which is what happens here because no plural contains `$`.
- `IsWordChar` is `\w` without the `u` flag. Characters outside ASCII count as non-word characters, as they do in JavaScript.
- `FixPrismaModels.RewriteCountsMatches` requires distinct singulars. The entries of an object never repeat a key. With a repeated singular, the later entry would find its matches already replaced, and the count would be lower than `TableCount`.
- `FixPrismaModels.RewriteFile` and `FixPrismaModels.Run` take the table as a parameter. The script's own table is `RenameTable.Renames`, used in `ScriptRun`.
- `Accessibility.FilterAriaLabel`: the number variant holds an integer. The rendering of non-integer numbers, `NaN`, infinities and integers of magnitude 10^21 or more (exponent notation) is not modelled.
- `Accessibility.PaginationAriaLabel`: an action that names an inherited property of `Object.prototype` (`constructor`, `toString`, `__proto__`, …) makes `labels[action]` return a non-string in JavaScript. The model treats such an action like any other unknown action and returns it unchanged. Page numbers are integers or absent (rendered `undefined`), as in the filter label.
- `Accessibility.HandleAccessibleKeyPress`: the callback is a foreign call. The model records how many times it is called, not what it does.
- `validateAria` reads the DOM. The element is reduced to the values it reads:
  - the `role`, `aria-label` and `aria-labelledby` attributes;
  - whether `querySelector('[role="row"]')` finds a descendant;
  - the element's text content, which is never `null` for an element.
- `Accessibility.CreateAccessibilityAttrs`: the result is a map, so the insertion order of the object's keys is not modelled.
- `Accessibility.FocusTrapKeyDown` does not model the following:
  - how the focusable list is built (`getFocusableElements`, `querySelectorAll`);
  - the listener registration and removal (accessibility.ts:123-127);
  - the fact that the list is computed once, when the trap is created.

  The active element is given as its index in that list, or as none.
- `Accessibility.FocusStaysInside` rests on an assumption: the browser's own Tab order among the trap's elements is their order in the list (`SequentialNext`). That browser behaviour is not part of the source.
- `announceToScreenReader`, `isAccessiblelyHidden` and `getAccessibleName` are not modelled. They are DOM insertions, timers, computed styles and element lookups, all foreign browser calls.

=== FILE: Accessibility.dfy ===
/**
 * The pure helpers of `src/app/admin/users/utils/accessibility.ts`: the ARIA
 * label builders, the Enter/Space key handler, the ARIA validation of one
 * element, the data-attribute record and the wrap rule of the focus trap.
 *
 * Browser objects are replaced by the values the helpers read from them: a key
 * event is its key (and whether its default action was prevented), an element
 * is the attributes `validateAria` asks for, and the focus trap sees the index
 * of the active element among the focusable elements.
 */
module Accessibility {

  datatype Option<T> = None | Some(value: T)

  /** JavaScript truthiness of an optional string: present and not empty. */
  predicate Truthy(s: Option<string>) {
    s.Some? && s.value != ""
  }

  // ---------------------------------------------------------------------
  // Rendering numbers in template literals.
  // ---------------------------------------------------------------------

  function DigitChar(d: nat): (c: char)
    requires d < 10
    ensures '0' <= c <= '9'
  {
    (48 + d) as char
  }

  function DigitValue(c: char): nat
    requires '0' <= c <= '9'
  {
    c as int - 48
  }

  /** The decimal digits of n, without leading zeros. */
  function NatString(n: nat): (r: string)
    ensures |r| > 0 && forall i :: 0 <= i < |r| ==> '0' <= r[i] <= '9'
    ensures r[0] == '0' ==> n == 0
    decreases n
  {
    if n < 10 then [DigitChar(n)] else NatString(n / 10) + [DigitChar(n % 10)]
  }

  /** The number a string of decimal digits denotes. */
  function DigitsValue(s: string): nat
    requires forall i :: 0 <= i < |s| ==> '0' <= s[i] <= '9'
  {
    if s == [] then 0 else 10 * DigitsValue(s[..|s| - 1]) + DigitValue(s[|s| - 1])
  }

  /** Reading the digits back gives the number. */
  lemma {:induction false} NatStringValue(n: nat)
    ensures DigitsValue(NatString(n)) == n
    decreases n
  {
    var r := NatString(n);
    if n >= 10 {
      NatStringValue(n / 10);
      assert r[..|r| - 1] == NatString(n / 10);
    }
  }

  /** `${n}` for an integer-valued JavaScript number n. */
  function IntString(n: int): (r: string)
    ensures |r| > 0 && (r[0] == '-' <==> n < 0)
  {
    if n < 0 then "-" + NatString(-n) else NatString(n)
  }

  /** Different natural numbers have different digits. */
  lemma NatStringInjective(m: nat, n: nat)
    ensures NatString(m) == NatString(n) ==> m == n
  {
    NatStringValue(m);
    NatStringValue(n);
  }

  /** Different integers render differently. */
  lemma IntStringInjective(m: int, n: int)
    ensures IntString(m) == IntString(n) <==> m == n
  {
    if IntString(m) == IntString(n) {
      if m < 0 {
        assert IntString(m)[1..] == NatString(-m);
        assert IntString(n)[1..] == NatString(-n);
        NatStringInjective(-m, -n);
      } else {
        NatStringInjective(m, n);
      }
    }
  }

  /** `${x}` for an optional number: `undefined` when it is absent. */
  function OptionalNumberString(x: Option<int>): string {
    match x
    case None => "undefined"
    case Some(n) => IntString(n)
  }

  // ---------------------------------------------------------------------
  // Label builders.
  // ---------------------------------------------------------------------

  /** The value of a filter: a string, a number or a boolean. */
  datatype FilterValue = Text(text: string) | Number(number: int) | Flag(flag: bool)

  /** `${value}` for a value that is not a boolean. */
  function ValueText(v: FilterValue): string
    requires !v.Flag?
  {
    if v.Text? then v.text else IntString(v.number)
  }

  /** `getFilterAriaLabel`: `<label> <operator>`, followed by ` <value>` unless the
      value is a boolean. */
  function FilterAriaLabel(fieldLabel: string, operator: string, value: FilterValue): string {
    if value.Flag? then fieldLabel + " " + operator
    else fieldLabel + " " + operator + " " + ValueText(value)
  }

  /** The label of a boolean filter does not say which boolean: it is the same
      for true and false, and it is a proper prefix of the label any other
      value gets. */
  lemma FilterLabelHidesFlag(fieldLabel: string, operator: string, b: bool, v: FilterValue)
    requires !v.Flag?
    ensures FilterAriaLabel(fieldLabel, operator, Flag(b)) == FilterAriaLabel(fieldLabel, operator, Flag(!b))
    ensures var short, long := FilterAriaLabel(fieldLabel, operator, Flag(b)), FilterAriaLabel(fieldLabel, operator, v);
      |short| < |long| && long[..|short|] == short
  {
    var short := fieldLabel + " " + operator;
    var long := short + " " + ValueText(v);
    assert long[..|short|] == short;
  }

  /** For the same field and operator, values that are not booleans get the same
      label exactly when they render to the same text; numbers get the same label
      exactly when they are equal. */
  lemma FilterLabelDistinguishes(fieldLabel: string, operator: string, v: FilterValue, w: FilterValue)
    requires !v.Flag? && !w.Flag?
    ensures FilterAriaLabel(fieldLabel, operator, v) == FilterAriaLabel(fieldLabel, operator, w) <==>
      ValueText(v) == ValueText(w)
    ensures v.Number? && w.Number? ==>
      (FilterAriaLabel(fieldLabel, operator, v) == FilterAriaLabel(fieldLabel, operator, w) <==> v == w)
  {
    var head := fieldLabel + " " + operator + " ";
    var lv, lw := FilterAriaLabel(fieldLabel, operator, v), FilterAriaLabel(fieldLabel, operator, w);
    assert lv == head + ValueText(v) && lw == head + ValueText(w);
    if lv == lw {
      assert lv[|head|..] == ValueText(v);
      assert lw[|head|..] == ValueText(w);
    }
    if v.Number? && w.Number? {
      IntStringInjective(v.number, w.number);
    }
  }

  /** The sort direction a column may have. */
  datatype SortDirection = Asc | Desc

  /** `getTableHeaderAriaLabel`. */
  function TableHeaderAriaLabel(columnName: string, isSorted: bool, sortDirection: Option<SortDirection>): string {
    if !isSorted then columnName + ", sortable"
    else columnName + ", sorted " + (if sortDirection == Some(Asc) then "ascending" else "descending")
  }

  /** The three labels a column can get, each exactly in its own case: an
      unsorted column is "sortable" whatever the direction, and a sorted one is
      "ascending" only for `'asc'`, so a missing direction reads "descending". */
  lemma TableHeaderLabelCases(columnName: string, isSorted: bool, sortDirection: Option<SortDirection>)
    ensures var r := TableHeaderAriaLabel(columnName, isSorted, sortDirection);
      (r == columnName + ", sortable" <==> !isSorted) &&
      (r == columnName + ", sorted ascending" <==> isSorted && sortDirection == Some(Asc)) &&
      (r == columnName + ", sorted descending" <==> isSorted && sortDirection != Some(Asc))
  {
    var n := |columnName|;
    var sortable, asc, desc := columnName + ", sortable", columnName + ", sorted ascending", columnName + ", sorted descending";
    assert sortable[n + 7] == 'b' && asc[n + 7] == 'd' && desc[n + 7] == 'd';
    assert asc[n + 9] == 'a' && desc[n + 9] == 'd';
  }

  /** The keys of the label record in `getPaginationAriaLabel`. */
  datatype PageAction = Prev | Next | First | Last | Jump

  /** The key of each entry of the label record. */
  function ActionKey(a: PageAction): string {
    match a
    case Prev => "prev"
    case Next => "next"
    case First => "first"
    case Last => "last"
    case Jump => "jump"
  }

  /** Looks an action string up among the keys of the label record. */
  function LookupAction(action: string): (r: Option<PageAction>)
    ensures r.Some? ==> ActionKey(r.value) == action
  {
    if action == "prev" then Some(Prev)
    else if action == "next" then Some(Next)
    else if action == "first" then Some(First)
    else if action == "last" then Some(Last)
    else if action == "jump" then Some(Jump)
    else None
  }

  /** Every key is found, as its own entry. */
  lemma LookupActionKey(a: PageAction)
    ensures LookupAction(ActionKey(a)) == Some(a)
  {
  }

  /** The entries of the label record, all of them non-empty strings. */
  function PageLabel(a: PageAction, currentPage: Option<int>, totalPages: Option<int>): (r: string)
    ensures r != ""
  {
    var current, total := OptionalNumberString(currentPage), OptionalNumberString(totalPages);
    match a
    case Prev => "Previous page, currently on page " + current + " of " + total
    case Next => "Next page, currently on page " + current + " of " + total
    case First => "Go to first page"
    case Last => "Go to last page (page " + total + ")"
    case Jump => "Jump to specific page (currently on page " + current + " of " + total + ")"
  }

  /** `getPaginationAriaLabel`: the entry of the label record for the action, or
      the action itself when the record has none. Every entry is a non-empty
      string, so `||` only falls back for other actions. */
  function PaginationAriaLabel(action: string, currentPage: Option<int>, totalPages: Option<int>): string {
    match LookupAction(action)
    case Some(a) => PageLabel(a, currentPage, totalPages)
    case None => action
  }

  /** The label of `last` mentions only the total, and the label of `first`
      mentions neither page. */
  lemma PageLabelPages(c1: Option<int>, c2: Option<int>, t1: Option<int>, t2: Option<int>)
    ensures PageLabel(Last, c1, t1) == PageLabel(Last, c2, t1)
    ensures PageLabel(Last, c1, t1) == PageLabel(Last, c1, t2) <==>
      OptionalNumberString(t1) == OptionalNumberString(t2)
    ensures PageLabel(First, c1, t1) == PageLabel(First, c2, t2) == "Go to first page"
  {
    var head := "Go to last page (page ";
    var l1, l2 := PageLabel(Last, c1, t1), PageLabel(Last, c1, t2);
    if l1 == l2 {
      assert l1[|head|..|l1| - 1] == OptionalNumberString(t1);
      assert l2[|head|..|l2| - 1] == OptionalNumberString(t2);
    }
  }

  /** The first and the seventh character of each entry. */
  function Signature(a: PageAction): (char, char) {
    match a
    case Prev => ('P', 'u')
    case Next => ('N', 'a')
    case First => ('G', 'f')
    case Last => ('G', 'l')
    case Jump => ('J', 'o')
  }

  /** Appending keeps the first seven characters. */
  lemma PrefixChars(head: string, rest: string)
    requires |head| > 6
    ensures |head + rest| > 6 && (head + rest)[0] == head[0] && (head + rest)[6] == head[6]
  {
  }

  /** The first seven characters of an entry of the form
      `<head><current> of <total>`, with or without a closing parenthesis,
      are those of head. */
  lemma PageHeadChars(head: string, current: string, total: string)
    requires |head| > 6
    ensures var l := head + current + " of " + total;
      |l| > 6 && l[0] == head[0] && l[6] == head[6]
    ensures var l := head + current + " of " + total + ")";
      |l| > 6 && l[0] == head[0] && l[6] == head[6]
  {
    PrefixChars(head, current);
    PrefixChars(head + current, " of ");
    PrefixChars(head + current + " of ", total);
    PrefixChars(head + current + " of " + total, ")");
  }

  lemma PrevSignature(c: Option<int>, t: Option<int>)
    ensures var l := PageLabel(Prev, c, t); |l| > 6 && (l[0], l[6]) == ('P', 'u')
  {
    PageHeadChars("Previous page, currently on page ", OptionalNumberString(c), OptionalNumberString(t));
  }

  lemma NextSignature(c: Option<int>, t: Option<int>)
    ensures var l := PageLabel(Next, c, t); |l| > 6 && (l[0], l[6]) == ('N', 'a')
  {
    PageHeadChars("Next page, currently on page ", OptionalNumberString(c), OptionalNumberString(t));
  }

  lemma LastSignature(c: Option<int>, t: Option<int>)
    ensures var l := PageLabel(Last, c, t); |l| > 6 && (l[0], l[6]) == ('G', 'l')
  {
    var head := "Go to last page (page ";
    PrefixChars(head, OptionalNumberString(t));
    PrefixChars(head + OptionalNumberString(t), ")");
  }

  lemma JumpSignature(c: Option<int>, t: Option<int>)
    ensures var l := PageLabel(Jump, c, t); |l| > 6 && (l[0], l[6]) == ('J', 'o')
  {
    PageHeadChars("Jump to specific page (currently on page ", OptionalNumberString(c), OptionalNumberString(t));
  }

  /** Two characters of each entry that do not depend on the pages. */
  lemma PageLabelSignature(a: PageAction, c: Option<int>, t: Option<int>)
    ensures var l := PageLabel(a, c, t);
      |l| > 6 && (l[0], l[6]) == Signature(a)
  {
    match a
    case Prev => PrevSignature(c, t);
    case Next => NextSignature(c, t);
    case First =>
    case Last => LastSignature(c, t);
    case Jump => JumpSignature(c, t);
  }

  /** The five entries are five different labels, whatever the pages. */
  lemma PageLabelsDistinct(a: PageAction, b: PageAction, c1: Option<int>, c2: Option<int>, t1: Option<int>, t2: Option<int>)
    ensures PageLabel(a, c1, t1) == PageLabel(b, c2, t2) <==> a == b && PageLabel(a, c1, t1) == PageLabel(a, c2, t2)
  {
    PageLabelSignature(a, c1, t1);
    PageLabelSignature(b, c2, t2);
  }

  /** The label is the action itself exactly when the action is not a key of
      the record; for a key it is that key's entry. */
  lemma PaginationFallback(action: string, currentPage: Option<int>, totalPages: Option<int>)
    ensures PaginationAriaLabel(action, currentPage, totalPages) == action <==> LookupAction(action).None?
    ensures LookupAction(action).Some? ==>
      PaginationAriaLabel(action, currentPage, totalPages) == PageLabel(LookupAction(action).value, currentPage, totalPages)
  {
    if LookupAction(action).Some? {
      PageLabelSignature(LookupAction(action).value, currentPage, totalPages);
    }
  }

  /** `getRowActionAriaLabel`. */
  function RowActionAriaLabel(itemIdentifier: string): string {
    "Actions for " + itemIdentifier
  }

  /** The item a row-action label names, if it is one. */
  function RowActionTarget(text: string): Option<string> {
    var head := "Actions for ";
    if |head| <= |text| && text[..|head|] == head then Some(text[|head|..]) else None
  }

  /** Row-action labels name their item: reading the item back from a label
      gives it, and a label that names an item is that item's label. */
  lemma RowActionRoundTrip(itemIdentifier: string, text: string)
    ensures RowActionTarget(RowActionAriaLabel(itemIdentifier)) == Some(itemIdentifier)
    ensures RowActionTarget(text) == Some(itemIdentifier) ==> RowActionAriaLabel(itemIdentifier) == text
  {
    var head := "Actions for ";
    var l := RowActionAriaLabel(itemIdentifier);
    assert l[..|head|] == head && l[|head|..] == itemIdentifier;
    if RowActionTarget(text) == Some(itemIdentifier) {
      assert text == text[..|head|] + text[|head|..];
    }
  }

  // ---------------------------------------------------------------------
  // Enter and Space.
  // ---------------------------------------------------------------------

  /** A keyboard event: its key and whether its default action is prevented. */
  datatype KeyEvent = KeyEvent(key: string, defaultPrevented: bool)

  /** What `handleAccessibleKeyPress` returns, the event afterwards, and how many
      times it called the callback. */
  datatype KeyPressOutcome = KeyPressOutcome(handled: bool, event: KeyEvent, callbackCalls: nat)

  /** `handleAccessibleKeyPress`: Enter and Space activate. */
  function HandleAccessibleKeyPress(event: KeyEvent): (out: KeyPressOutcome)
    ensures out.handled <==> event.key == "Enter" || event.key == " "
    ensures out.callbackCalls == (if out.handled then 1 else 0)
    ensures out.handled ==> out.event == event.(defaultPrevented := true)
    ensures !out.handled ==> out.event == event
  {
    if event.key == "Enter" || event.key == " " then
      KeyPressOutcome(true, event.(defaultPrevented := true), 1)
    else
      KeyPressOutcome(false, event, 0)
  }

  // ---------------------------------------------------------------------
  // validateAria.
  // ---------------------------------------------------------------------

  /** The characters `String.prototype.trim` removes: white space and line
      terminators. */
  predicate IsTrimmed(c: char) {
    var n := c as int;
    (0x09 <= n <= 0x0D) || n == 0x20 || n == 0xA0 || n == 0x1680 || (0x2000 <= n <= 0x200A) ||
    n == 0x2028 || n == 0x2029 || n == 0x202F || n == 0x205F || n == 0x3000 || n == 0xFEFF
  }

  /** Drops the removable characters at the start. */
  function TrimStart(s: string): (r: string)
    ensures |r| <= |s| && r == s[|s| - |r|..]
    ensures forall i :: 0 <= i < |s| - |r| ==> IsTrimmed(s[i])
    ensures r == [] || !IsTrimmed(r[0])
  {
    if s != [] && IsTrimmed(s[0]) then
      var r := TrimStart(s[1..]);
      assert forall i :: 1 <= i < |s| - |r| ==> s[i] == s[1..][i - 1];
      r
    else s
  }

  /** Drops the removable characters at the end. */
  function TrimEnd(s: string): (r: string)
    ensures |r| <= |s| && r == s[..|r|]
    ensures forall i :: |r| <= i < |s| ==> IsTrimmed(s[i])
    ensures r == [] || !IsTrimmed(r[|r| - 1])
  {
    if s != [] && IsTrimmed(s[|s| - 1]) then
      var r := TrimEnd(s[..|s| - 1]);
      assert forall i :: |r| <= i < |s| - 1 ==> s[i] == s[..|s| - 1][i];
      r
    else s
  }

  /** `String.prototype.trim`. */
  function Trim(s: string): string {
    TrimEnd(TrimStart(s))
  }

  /** A string trims to nothing exactly when it is made only of removable characters. */
  lemma TrimEmpty(s: string)
    ensures Trim(s) == [] <==> forall i :: 0 <= i < |s| ==> IsTrimmed(s[i])
  {
    var t := TrimStart(s);
    if Trim(s) == [] {
      assert |t| == 0;
    } else {
      var r := Trim(s);
      assert r[|r| - 1] == t[|r| - 1] == s[|s| - |t| + |r| - 1];
    }
  }

  /** What `validateAria` reads from an element: its `role`, `aria-label` and
      `aria-labelledby` attributes (absent is `None`), whether some descendant
      has role `row`, and its text content. */
  datatype Element = Element(
    role: Option<string>,
    ariaLabel: Option<string>,
    ariaLabelledBy: Option<string>,
    hasRowChild: bool,
    textContent: string)

  /** The roles `validateAria` accepts. */
  const ValidRoles: seq<string> :=
    ["button", "link", "navigation", "main", "region", "search", "table", "row", "columnheader"]

  const TableIssue: string := "Table role requires row children"
  const ButtonIssue: string := "Button requires aria-label or text content"

  function InvalidRoleIssue(role: string): string {
    "Invalid role: " + role
  }

  /** The role is set, not empty and not one of the valid roles. */
  predicate HasInvalidRole(e: Element) {
    Truthy(e.role) && e.role.value !in ValidRoles
  }

  /** The role is `table` and no descendant has role `row`. */
  predicate IsTableWithoutRows(e: Element) {
    e.role == Some("table") && !e.hasRowChild
  }

  /** The role is `button`, the element has neither a label nor a reference to
      one, and its text is blank. */
  predicate IsUnnamedButton(e: Element) {
    !Truthy(e.ariaLabel) && !Truthy(e.ariaLabelledBy) && e.role == Some("button") && Trim(e.textContent) == ""
  }

  /** The issues of an element. The three rules are exclusive, because `table`
      and `button` are valid roles: an element has at most one issue. */
  function AriaIssues(e: Element): (issues: seq<string>)
    ensures |issues| <= 1
  {
    if HasInvalidRole(e) then [InvalidRoleIssue(e.role.value)]
    else if IsTableWithoutRows(e) then [TableIssue]
    else if IsUnnamedButton(e) then [ButtonIssue]
    else []
  }

  /** Which issue is reported for what: each rule in its own case only. */
  lemma AriaIssuesCases(e: Element, role: string)
    ensures InvalidRoleIssue(role) in AriaIssues(e) <==> e.role == Some(role) && HasInvalidRole(e)
    ensures TableIssue in AriaIssues(e) <==> IsTableWithoutRows(e)
    ensures ButtonIssue in AriaIssues(e) <==> IsUnnamedButton(e)
    ensures AriaIssues(e) == [] <==> !HasInvalidRole(e) && !IsTableWithoutRows(e) && !IsUnnamedButton(e)
  {
    var prefix := "Invalid role: ";
    assert TableIssue[..|prefix|] != prefix by {
      assert TableIssue[0] != prefix[0];
    }
    assert ButtonIssue[..|prefix|] != prefix by {
      assert ButtonIssue[0] != prefix[0];
    }
    assert TableIssue != ButtonIssue by {
      assert TableIssue[0] != ButtonIssue[0];
    }
    if HasInvalidRole(e) {
      var issue := InvalidRoleIssue(e.role.value);
      assert issue[..|prefix|] == prefix;
      if InvalidRoleIssue(role) == issue {
        assert issue[|prefix|..] == e.role.value;
        assert InvalidRoleIssue(role)[|prefix|..] == role;
      }
    } else {
      assert InvalidRoleIssue(role)[..|prefix|] == prefix;
    }
  }

  /** `validateAria`: the role check, then the table check, then the button
      check, each pushing its issue. */
  method ValidateAria(e: Element) returns (issues: seq<string>)
    ensures issues == AriaIssues(e)
  {
    issues := [];
    if Truthy(e.role) && e.role.value !in ValidRoles {
      issues := issues + [InvalidRoleIssue(e.role.value)];
    }
    if e.role == Some("table") && !e.hasRowChild {
      issues := issues + [TableIssue];
    }
    if !Truthy(e.ariaLabel) && !Truthy(e.ariaLabelledBy) {
      if e.role == Some("button") && Trim(e.textContent) == "" {
        issues := issues + [ButtonIssue];
      }
    }
  }

  // ---------------------------------------------------------------------
  // createAccessibilityAttrs.
  // ---------------------------------------------------------------------

  /** `createAccessibilityAttrs`: `data-qa` always, `role` and `aria-label` only
      when given as non-empty strings. */
  function CreateAccessibilityAttrs(name: string, role: Option<string>, ariaLabel: Option<string>): (attrs: map<string, string>)
    ensures attrs.Keys <= {"data-qa", "role", "aria-label"}
    ensures "data-qa" in attrs && attrs["data-qa"] == name
    ensures "role" in attrs <==> Truthy(role)
    ensures "role" in attrs ==> attrs["role"] == role.value
    ensures "aria-label" in attrs <==> Truthy(ariaLabel)
    ensures "aria-label" in attrs ==> attrs["aria-label"] == ariaLabel.value
  {
    var withName := map["data-qa" := name];
    var withRole := if Truthy(role) then withName["role" := role.value] else withName;
    if Truthy(ariaLabel) then withRole["aria-label" := ariaLabel.value] else withRole
  }

  /** The element an attribute record describes, with the given descendants and text. */
  function ElementWith(attrs: map<string, string>, hasRowChild: bool, textContent: string): Element {
    Element(
      if "role" in attrs then Some(attrs["role"]) else None,
      if "aria-label" in attrs then Some(attrs["aria-label"]) else None,
      if "aria-labelledby" in attrs then Some(attrs["aria-labelledby"]) else None,
      hasRowChild, textContent)
  }

  /** An element that carries the attributes `createAccessibilityAttrs` makes
      passes `validateAria` exactly when its role is absent or valid, a table
      has rows and a button has a label or text. */
  lemma CreatedAttrsValidate(name: string, role: Option<string>, ariaLabel: Option<string>, hasRowChild: bool, textContent: string)
    ensures var e := ElementWith(CreateAccessibilityAttrs(name, role, ariaLabel), hasRowChild, textContent);
      AriaIssues(e) == [] <==>
        (!Truthy(role) || role.value in ValidRoles) &&
        (Truthy(role) && role.value == "table" ==> hasRowChild) &&
        (Truthy(role) && role.value == "button" ==> Truthy(ariaLabel) || Trim(textContent) != "")
  {
    var e := ElementWith(CreateAccessibilityAttrs(name, role, ariaLabel), hasRowChild, textContent);
    AriaIssuesCases(e, "");
    assert Truthy(e.role) <==> Truthy(role);
    assert Truthy(e.ariaLabel) <==> Truthy(ariaLabel);
    assert e.ariaLabelledBy == None;
  }

  // ---------------------------------------------------------------------
  // The focus trap.
  // ---------------------------------------------------------------------

  /** What the trap's key handler does: call the Escape handler, move focus to a
      focusable element (preventing the default), or nothing. */
  datatype TrapAction = CallEscape | MoveFocus(target: nat) | Ignore

  /** The trap's `handleKeyDown`, for count focusable elements and the index of
      the active element among them (`None` when it is none of them). */
  function FocusTrapKeyDown(key: string, shiftKey: bool, hasOnEscape: bool, active: Option<nat>, count: nat): (a: TrapAction)
    requires active.Some? ==> active.value < count
    ensures a.CallEscape? <==> key == "Escape" && hasOnEscape
    ensures a.MoveFocus? ==> key == "Tab" && a.target < count
    ensures a.MoveFocus? <==>
      key == "Tab" && count > 0 && active.Some? && active.value == (if shiftKey then 0 else count - 1)
    ensures a.MoveFocus? ==> a.target == (if shiftKey then count - 1 else 0)
  {
    if key == "Escape" && hasOnEscape then CallEscape
    else if key != "Tab" then Ignore
    else if shiftKey then
      if count > 0 && active == Some(0) then MoveFocus(count - 1) else Ignore
    else
      if count > 0 && active == Some(count - 1) then MoveFocus(0) else Ignore
  }

  /** Where the browser's own Tab (or Shift+Tab) handling would move focus from
      position i, taking the focusable elements as the sequential focus order. */
  function SequentialNext(i: nat, shiftKey: bool): int {
    if shiftKey then i - 1 else i + 1
  }

  /** Focus stays inside: from any focusable element, Tab and Shift+Tab either
      wrap to the other end or leave a move that lands on another focusable
      element. */
  lemma FocusStaysInside(shiftKey: bool, hasOnEscape: bool, i: nat, count: nat)
    requires i < count
    ensures var a := FocusTrapKeyDown("Tab", shiftKey, hasOnEscape, Some(i), count);
      0 <= (if a.MoveFocus? then a.target else SequentialNext(i, shiftKey)) < count
  {
  }
}

=== FILE: FixPrismaModels.dfy ===
/**
 * The codemod `scripts/fix-prisma-models.js`. For every source file and for
 * every entry of the rename table, in table order, it rewrites the word-bounded
 * accessor `prisma.<singular>` to `prisma.<plural>` and then `tx.<singular>` to
 * `tx.<plural>`, counting what it replaced. A file is written back, and
 * reported with its count, only when that count is positive.
 *
 * File discovery and file contents are a map from path to text (the disk) and
 * the list of paths the globs return; writing a file updates the map.
 */
module FixPrismaModels {
  import opened WordMatch
  import opened RenameTable

  // ---------------------------------------------------------------------
  // One file: the pure specification.
  // ---------------------------------------------------------------------

  /** One count-then-replace step for one receiver: the matches of
      `<root>.<singular>` are counted, and the text is replaced only when there
      are some. The guard never makes a difference to the text. */
  function Pass(text: string, root: string, r: Rename): (out: (string, nat))
    ensures out.0 == ReplaceAll(text, Access(root, r.singular), Access(root, r.plural))
  {
    var pat, rep := Access(root, r.singular), Access(root, r.plural);
    var matches := CountMatches(text, pat);
    if matches > 0 then (ReplaceAll(text, pat, rep), matches)
    else ReplaceAllWithoutMatches(text, pat, rep); (text, 0)
  }

  /** One table entry: the `prisma` step, then the `tx` step on its output. */
  function ApplyRename(text: string, r: Rename): (string, nat) {
    var (t1, c1) := Pass(text, Prisma, r);
    var (t2, c2) := Pass(t1, Tx, r);
    (t2, c1 + c2)
  }

  /** Applies step to the entries of table in order, starting from text: each
      entry is applied to the text the one before produced, and the counts add up. */
  function Fold(step: (string, Rename) -> (string, nat), text: string, table: seq<Rename>): (string, nat)
    decreases |table|
  {
    if table == [] then (text, 0)
    else
      var (t, c) := Fold(step, text, table[..|table| - 1]);
      var (t2, c2) := step(t, table[|table| - 1]);
      (t2, c + c2)
  }

  /** One more entry is one more step of the fold. */
  lemma FoldStep(step: (string, Rename) -> (string, nat), text: string, table: seq<Rename>, i: nat)
    requires i < |table|
    ensures var (t, c) := Fold(step, text, table[..i]);
      Fold(step, text, table[..i + 1]) == (step(t, table[i]).0, c + step(t, table[i]).1)
  {
    assert table[..i + 1][..i] == table[..i];
  }

  /** The text and the replacement count after the entries of table are applied
      in order. */
  function RewriteWith(text: string, table: seq<Rename>): (string, nat) {
    Fold(ApplyRename, text, table)
  }

  /** The per-file rewrite for table, as a value the driver can be given. */
  function Rewriter(table: seq<Rename>): string -> (string, nat) {
    text => RewriteWith(text, table)
  }

  // ---------------------------------------------------------------------
  // One file: the loop of the codemod.
  // ---------------------------------------------------------------------

  /** One regular expression of the inner loop: count its matches in text and,
      when there are some, replace them. */
  method CountAndReplace(text: string, root: string, r: Rename) returns (newText: string, matches: nat)
    ensures (newText, matches) == Pass(text, root, r)
  {
    var re := Access(root, r.singular);
    matches := CountMatches(text, re);
    newText := text;
    if matches > 0 {
      newText := ReplaceAll(text, re, Access(root, r.plural));
    }
  }

  /** The inner loop over `Object.entries(map)`: `text` and `fileReplacements`
      are updated entry by entry, with the `prisma` pattern before the `tx` one.
      The script runs it with table = Renames. */
  method RewriteFile(table: seq<Rename>, content: string) returns (text: string, fileReplacements: nat)
    ensures (text, fileReplacements) == RewriteWith(content, table)
  {
    text, fileReplacements := content, 0;
    var i := 0;
    while i < |table|
      invariant 0 <= i <= |table|
      invariant (text, fileReplacements) == RewriteWith(content, table[..i])
    {
      FoldStep(ApplyRename, content, table, i);
      var r := table[i];
      var matchesPrisma, matchesTx;
      text, matchesPrisma := CountAndReplace(text, Prisma, r);
      fileReplacements := fileReplacements + matchesPrisma;
      text, matchesTx := CountAndReplace(text, Tx, r);
      fileReplacements := fileReplacements + matchesTx;
      i := i + 1;
    }
    assert table[..i] == table;
  }

  // ---------------------------------------------------------------------
  // Properties of one step and of the fold.
  // ---------------------------------------------------------------------

  /** The count a step adds is the number of occurrences it replaces, and
      outside them the text is kept: the text is a list of gaps joined by the
      pattern, the output is the same gaps joined by the replacement, and there
      is one gap more than the count. */
  lemma PassDecomposition(text: string, root: string, r: Rename)
    ensures var pat, rep := Access(root, r.singular), Access(root, r.plural);
      |Gaps(text, pat)| == Pass(text, root, r).1 + 1 &&
      Join(Gaps(text, pat), pat) == text &&
      Join(Gaps(text, pat), rep) == Pass(text, root, r).0
  {
    ReplaceAllDecomposition(text, Access(root, r.singular), Access(root, r.plural));
  }

  /** Entries apply in order: folding over a + b is folding over a, then
      folding over b from that output, and the counts add up. */
  lemma {:induction false} FoldAppend(step: (string, Rename) -> (string, nat), text: string, a: seq<Rename>, b: seq<Rename>)
    ensures var (t, c) := Fold(step, text, a);
      Fold(step, text, a + b) == (Fold(step, t, b).0, c + Fold(step, t, b).1)
    decreases |b|
  {
    if b == [] {
      assert a + b == a;
    } else {
      var b' := b[..|b| - 1];
      FoldAppend(step, text, a, b');
      var ab := a + b;
      assert ab[..|ab| - 1] == a + b';
      assert ab[|ab| - 1] == b[|b| - 1];
    }
  }

  /** No pattern of the entries of table matches anywhere in text. */
  ghost predicate CleanFor(text: string, table: seq<Rename>) {
    forall k :: 0 <= k < |table| ==>
      Clean(text, Access(Prisma, table[k].singular)) && Clean(text, Access(Tx, table[k].singular))
  }

  /** When nothing matches, rewriting changes nothing and counts nothing. */
  lemma {:induction false} RewriteWithClean(text: string, table: seq<Rename>)
    requires CleanFor(text, table)
    ensures RewriteWith(text, table) == (text, 0)
    decreases |table|
  {
    if table != [] {
      var r := table[|table| - 1];
      assert CleanFor(text, table[..|table| - 1]);
      RewriteWithClean(text, table[..|table| - 1]);
      CountZeroIffClean(text, Access(Prisma, r.singular));
      CountZeroIffClean(text, Access(Tx, r.singular));
    }
  }

  /** A count of zero means the text was left as it was. */
  lemma {:induction false} RewriteWithZero(text: string, table: seq<Rename>)
    ensures RewriteWith(text, table).1 == 0 ==> RewriteWith(text, table).0 == text
    decreases |table|
  {
    if table != [] {
      RewriteWithZero(text, table[..|table| - 1]);
    }
  }

  /** A step for an entry of a well-formed table clears its own pattern and
      keeps clear every pattern `<receiver>.<singular>` of the table that was clear. */
  lemma PassKeepsClean(text: string, root: string, r: Rename, qr: string, q: Rename, table: seq<Rename>)
    requires WellFormed(table) && r in table && q in table
    requires root == Prisma || root == Tx
    requires qr == Prisma || qr == Tx
    requires (qr == root && q.singular == r.singular) || Clean(text, Access(qr, q.singular))
    ensures Clean(Pass(text, root, r).0, Access(qr, q.singular))
  {
    ReceiversAreWords();
    if qr == root && q.singular == r.singular {
      ReplaceAllClears(text, root, r.singular, r.plural);
    } else {
      ReplaceAllKeepsClean(text, root, r.singular, r.plural, qr, q.singular);
    }
  }

  /** After an entry of a well-formed table is applied, both its patterns are
      clear, and every pattern of the table that was clear stays clear. */
  lemma ApplyRenameKeepsClean(text: string, r: Rename, q: Rename, table: seq<Rename>)
    requires WellFormed(table) && r in table && q in table
    requires q == r || (Clean(text, Access(Prisma, q.singular)) && Clean(text, Access(Tx, q.singular)))
    ensures var t := ApplyRename(text, r).0;
      Clean(t, Access(Prisma, q.singular)) && Clean(t, Access(Tx, q.singular))
  {
    var t1 := Pass(text, Prisma, r).0;
    PassKeepsClean(text, Prisma, r, Prisma, q, table);
    if q != r {
      PassKeepsClean(text, Prisma, r, Tx, q, table);
    }
    PassKeepsClean(t1, Tx, r, Prisma, q, table);
    PassKeepsClean(t1, Tx, r, Tx, q, table);
  }

  /** Rewriting with a well-formed table leaves no pattern of it that matches. */
  lemma {:induction false} RewriteWithCleans(text: string, table: seq<Rename>, whole: seq<Rename>)
    requires WellFormed(whole) && forall k :: 0 <= k < |table| ==> table[k] in whole
    ensures CleanFor(RewriteWith(text, table).0, table)
    decreases |table|
  {
    if table != [] {
      var prefix, r := table[..|table| - 1], table[|table| - 1];
      RewriteWithCleans(text, prefix, whole);
      var t := RewriteWith(text, prefix).0;
      forall k | 0 <= k < |table|
        ensures Clean(ApplyRename(t, r).0, Access(Prisma, table[k].singular))
        ensures Clean(ApplyRename(t, r).0, Access(Tx, table[k].singular))
      {
        if k < |prefix| {
          assert table[k] == prefix[k];
        }
        ApplyRenameKeepsClean(t, r, table[k], whole);
      }
    }
  }

  /** Idempotence: with a well-formed table (the script's is one, by
      RenamesWellFormed), a second run over a rewritten text replaces nothing. */
  lemma RewriteIdempotent(text: string, table: seq<Rename>)
    requires WellFormed(table)
    ensures var out := RewriteWith(text, table).0;
      RewriteWith(out, table) == (out, 0)
  {
    RewriteWithCleans(text, table, table);
    RewriteWithClean(RewriteWith(text, table).0, table);
  }

  /** With a well-formed table the count is positive exactly when the text
      changes, so "written only when something was replaced" is "written only
      when the text changed". */
  lemma RewriteCountsChanges(text: string, table: seq<Rename>)
    requires WellFormed(table)
    ensures RewriteWith(text, table).1 > 0 <==> RewriteWith(text, table).0 != text
  {
    RewriteWithZero(text, table);
    RewriteWithCleans(text, table, table);
    if RewriteWith(text, table).0 == text {
      RewriteWithClean(text, table);
    }
  }

  /** The matches in text of the two patterns of entry r. */
  function EntryCount(text: string, r: Rename): nat {
    CountMatches(text, Access(Prisma, r.singular)) + CountMatches(text, Access(Tx, r.singular))
  }

  /** The matches in text of all the patterns of table, each counted on text
      as it was read. */
  function TableCount(text: string, table: seq<Rename>): nat
    decreases |table|
  {
    if table == [] then 0 else TableCount(text, table[..|table| - 1]) + EntryCount(text, table[|table| - 1])
  }

  /** A step for an entry of a well-formed table keeps the number of matches of
      `<qr>.<qn>` for a name qn that is not a receiver, unless the pattern is
      the step's own singular or plural pattern. */
  lemma PassKeepsCount(text: string, root: string, r: Rename, qr: string, qn: string, table: seq<Rename>)
    requires WellFormed(table) && r in table
    requires root == Prisma || root == Tx
    requires qr == Prisma || qr == Tx
    requires IsWord(qn) && qn != Prisma && qn != Tx
    requires qr != root || (qn != r.singular && qn != r.plural)
    ensures CountMatches(Pass(text, root, r).0, Access(qr, qn)) == CountMatches(text, Access(qr, qn))
  {
    ReceiversAreWords();
    ReplaceAllKeepsCount(text, root, r.singular, r.plural, qr, qn);
  }

  /** Rewriting with entries of a well-formed table keeps the number of matches
      of `<qr>.<qn>` when qn is none of their singulars and plurals. */
  lemma {:induction false} RewriteKeepsCount(text: string, table: seq<Rename>, whole: seq<Rename>, qr: string, qn: string)
    requires WellFormed(whole) && forall k :: 0 <= k < |table| ==> table[k] in whole
    requires qr == Prisma || qr == Tx
    requires IsWord(qn) && qn != Prisma && qn != Tx
    requires forall k :: 0 <= k < |table| ==> table[k].singular != qn && table[k].plural != qn
    ensures CountMatches(RewriteWith(text, table).0, Access(qr, qn)) == CountMatches(text, Access(qr, qn))
    decreases |table|
  {
    if table != [] {
      var prefix, r := table[..|table| - 1], table[|table| - 1];
      RewriteKeepsCount(text, prefix, whole, qr, qn);
      var t := RewriteWith(text, prefix).0;
      PassKeepsCount(t, Prisma, r, qr, qn, whole);
      PassKeepsCount(Pass(t, Prisma, r).0, Tx, r, qr, qn, whole);
    }
  }

  /** The step for the last entry counts the matches of its two patterns in
      the text as it was read, when the entries before it keep those counts. */
  lemma ApplyRenameCounts(text: string, t: string, r: Rename, whole: seq<Rename>)
    requires WellFormed(whole) && r in whole
    requires CountMatches(t, Access(Prisma, r.singular)) == CountMatches(text, Access(Prisma, r.singular))
    requires CountMatches(t, Access(Tx, r.singular)) == CountMatches(text, Access(Tx, r.singular))
    ensures ApplyRename(t, r).1 == EntryCount(text, r)
  {
    ReceiversAreWords();
    PassKeepsCount(t, Prisma, r, Tx, r.singular, whole);
  }

  lemma {:induction false} FoldCounts(text: string, table: seq<Rename>, whole: seq<Rename>)
    requires WellFormed(whole) && forall k :: 0 <= k < |table| ==> table[k] in whole
    requires DistinctSingulars(table)
    ensures RewriteWith(text, table).1 == TableCount(text, table)
    decreases |table|
  {
    if table != [] {
      var prefix, r := table[..|table| - 1], table[|table| - 1];
      assert DistinctSingulars(prefix);
      FoldCounts(text, prefix, whole);
      ReceiversAreWords();
      assert forall k :: 0 <= k < |prefix| ==> prefix[k].singular != r.singular by {
        forall k | 0 <= k < |prefix| ensures prefix[k].singular != r.singular {
          assert prefix[k] == table[k];
        }
      }
      RewriteKeepsCount(text, prefix, whole, Prisma, r.singular);
      RewriteKeepsCount(text, prefix, whole, Tx, r.singular);
      ApplyRenameCounts(text, RewriteWith(text, prefix).0, r, whole);
    }
  }

  /** Report accuracy: with a well-formed table whose singulars are distinct
      (the keys of an object), the count of a file is the number of matches of
      the table's patterns in the file as it was read, although each step
      scans the text the step before produced. */
  lemma RewriteCountsMatches(text: string, table: seq<Rename>)
    requires WellFormed(table) && DistinctSingulars(table)
    ensures RewriteWith(text, table).1 == TableCount(text, table)
  {
    FoldCounts(text, table, table);
  }

  /** The first entry of the table. */
  lemma FirstEntry()
    ensures Renames[0] == Rename("user", "users")
  {
  }

  lemma LongerNameClean()
    ensures Clean("prisma.userProfile", Access(Prisma, "user"))
  {
    var s, pat := "prisma.userProfile", Access(Prisma, "user");
    forall i: nat | i + |pat| <= |s| && s[i..i + |pat|] == pat ensures !MatchAt(s, pat, i) {
      assert s[i..i + |pat|][0] == s[i] == 'p';
      assert !IsBoundary(s, 11);
    }
  }

  lemma PluralClean()
    ensures Clean("prisma.users", Access(Prisma, "user"))
  {
    var s, pat := "prisma.users", Access(Prisma, "user");
    forall i: nat | i + |pat| <= |s| && s[i..i + |pat|] == pat ensures !MatchAt(s, pat, i) {
      assert s[i..i + |pat|][0] == s[i] == 'p';
      assert !IsBoundary(s, 11);
    }
  }

  lemma LongerReceiverClean()
    ensures Clean("myprisma.user", Access(Prisma, "user"))
  {
    var s, pat := "myprisma.user", Access(Prisma, "user");
    forall i: nat | i + |pat| <= |s| && s[i..i + |pat|] == pat ensures !MatchAt(s, pat, i) {
      assert s[i..i + |pat|][0] == s[i] == 'p';
      assert !IsBoundary(s, 2);
    }
  }

  /** The `\b` on both sides of the pattern: the first entry of the table,
      `user`, leaves a longer name, its plural and a longer receiver alone. */
  lemma UserEntryWordBounded()
    ensures var user := Renames[0];
      Pass("prisma.userProfile", Prisma, user) == ("prisma.userProfile", 0) &&
      Pass("prisma.users", Prisma, user) == ("prisma.users", 0) &&
      Pass("myprisma.user", Prisma, user) == ("myprisma.user", 0)
  {
    FirstEntry();
    var pat := Access(Prisma, "user");
    LongerNameClean();
    CountZeroIffClean("prisma.userProfile", pat);
    PluralClean();
    CountZeroIffClean("prisma.users", pat);
    LongerReceiverClean();
    CountZeroIffClean("myprisma.user", pat);
  }

  /** The whole accessor is rewritten and counted once. */
  lemma UserEntryRewrites()
    ensures Pass("prisma.user", Prisma, Renames[0]) == ("prisma.users", 1)
  {
    FirstEntry();
    var s, pat := "prisma.user", Access(Prisma, "user");
    assert MatchAt(s, pat, 0) by {
      assert s[0..11] == s;
    }
    assert Occurrences(s, pat) == [0];
    assert ReplaceAll(s, pat, Access(Prisma, "users")) == "prisma.users";
  }

  // ---------------------------------------------------------------------
  // The whole run.
  // ---------------------------------------------------------------------

  /** An element of `results`. */
  datatype FileResult = FileResult(file: string, replacements: nat)

  /** The state the outer loop keeps: `results`, `totalReplacements` and the files. */
  datatype RunState = RunState(results: seq<FileResult>, total: nat, disk: map<string, string>)

  /** One iteration of the outer loop, for one file, with rewrite as the inner loop. */
  function Step(rewrite: string -> (string, nat), st: RunState, file: string): (out: RunState)
    requires file in st.disk
    ensures out.disk.Keys == st.disk.Keys
  {
    var (text, n) := rewrite(st.disk[file]);
    if n > 0 then RunState(st.results + [FileResult(file, n)], st.total + n, st.disk[file := text])
    else st
  }

  /** The outer loop over the files, from an empty report. */
  function RunOver(rewrite: string -> (string, nat), disk: map<string, string>, files: seq<string>): (out: RunState)
    requires forall k :: 0 <= k < |files| ==> files[k] in disk
    ensures out.disk.Keys == disk.Keys
    decreases |files|
  {
    if files == [] then RunState([], 0, disk)
    else Step(rewrite, RunOver(rewrite, disk, files[..|files| - 1]), files[|files| - 1])
  }

  /** The script's main loop. Every path the globs return exists, so every
      file can be read. */
  method Run(table: seq<Rename>, disk0: map<string, string>, files: seq<string>)
    returns (results: seq<FileResult>, totalReplacements: nat, disk: map<string, string>)
    requires forall k :: 0 <= k < |files| ==> files[k] in disk0
    ensures RunState(results, totalReplacements, disk) == RunOver(Rewriter(table), disk0, files)
  {
    results, totalReplacements, disk := [], 0, disk0;
    var i := 0;
    while i < |files|
      invariant 0 <= i <= |files|
      invariant RunState(results, totalReplacements, disk) == RunOver(Rewriter(table), disk0, files[..i])
    {
      var file := files[i];
      assert files[..i + 1][..i] == files[..i];
      var text, fileReplacements := RewriteFile(table, disk[file]);
      if fileReplacements > 0 {
        disk := disk[file := text];
        results := results + [FileResult(file, fileReplacements)];
        totalReplacements := totalReplacements + fileReplacements;
      }
      i := i + 1;
    }
    assert files[..i] == files;
  }

  /** Rewriting its own output again finds nothing to replace. */
  ghost predicate Settles(rewrite: string -> (string, nat)) {
    forall x :: rewrite(rewrite(x).0) == (rewrite(x).0, 0)
  }

  /** The count is positive exactly when the text changes. */
  ghost predicate CountsChanges(rewrite: string -> (string, nat)) {
    forall x :: rewrite(x).1 > 0 <==> rewrite(x).0 != x
  }

  /** The per-file rewrite of a well-formed table has both properties the run
      relies on. */
  lemma RewriterSettles(table: seq<Rename>)
    requires WellFormed(table)
    ensures Settles(Rewriter(table)) && CountsChanges(Rewriter(table))
  {
    forall x ensures Rewriter(table)(Rewriter(table)(x).0) == (Rewriter(table)(x).0, 0) {
      RewriteIdempotent(x, table);
    }
    forall x ensures Rewriter(table)(x).1 > 0 <==> Rewriter(table)(x).0 != x {
      RewriteCountsChanges(x, table);
    }
  }

  function SumReplacements(results: seq<FileResult>): nat {
    if results == [] then 0
    else SumReplacements(results[..|results| - 1]) + results[|results| - 1].replacements
  }

  /** Every reported count is positive. */
  predicate AllPositive(results: seq<FileResult>) {
    forall k :: 0 <= k < |results| ==> results[k].replacements > 0
  }

  /** Appending a result adds its count to the sum. */
  lemma SumAppend(results: seq<FileResult>, r: FileResult)
    ensures SumReplacements(results + [r]) == SumReplacements(results) + r.replacements
    ensures AllPositive(results + [r]) <==> AllPositive(results) && r.replacements > 0
  {
    var all := results + [r];
    assert all[..|all| - 1] == results;
    assert all[|results|] == r;
    if AllPositive(results) && r.replacements > 0 {
      forall k | 0 <= k < |all| ensures all[k].replacements > 0 {
        if k < |results| {
          assert all[k] == results[k];
        }
      }
    }
  }

  /** `totalReplacements` is the sum of the reported counts, and every
      reported count is positive. */
  lemma {:induction false} RunTotals(rewrite: string -> (string, nat), disk: map<string, string>, files: seq<string>)
    requires forall k :: 0 <= k < |files| ==> files[k] in disk
    ensures var out := RunOver(rewrite, disk, files);
      out.total == SumReplacements(out.results) && AllPositive(out.results)
    decreases |files|
  {
    if files != [] {
      var prefix, file := files[..|files| - 1], files[|files| - 1];
      RunTotals(rewrite, disk, prefix);
      var st := RunOver(rewrite, disk, prefix);
      var n := rewrite(st.disk[file]).1;
      assert RunOver(rewrite, disk, files) == Step(rewrite, st, file);
      SumAppend(st.results, FileResult(file, n));
    }
  }

  /** After the run every listed file holds its rewritten text and every other
      file is as it was, however often a path is listed. */
  lemma {:induction false} RunFiles(rewrite: string -> (string, nat), disk: map<string, string>, files: seq<string>)
    requires Settles(rewrite) && CountsChanges(rewrite)
    requires forall k :: 0 <= k < |files| ==> files[k] in disk
    ensures var out := RunOver(rewrite, disk, files);
      forall f :: f in disk ==> out.disk[f] == if f in files then rewrite(disk[f]).0 else disk[f]
    decreases |files|
  {
    if files != [] {
      var prefix, file := files[..|files| - 1], files[|files| - 1];
      RunFiles(rewrite, disk, prefix);
      assert forall f :: f in files <==> f in prefix || f == file;
    }
  }

  /** The file appears in results. */
  predicate Reported(results: seq<FileResult>, f: string) {
    exists k :: 0 <= k < |results| && results[k].file == f
  }

  /** Appending a result for file reports file and keeps every earlier report. */
  lemma ReportedAppend(results: seq<FileResult>, r: FileResult, f: string)
    ensures Reported(results + [r], f) <==> Reported(results, f) || r.file == f
  {
    var all := results + [r];
    if Reported(all, f) {
      var k :| 0 <= k < |all| && all[k].file == f;
      if k < |results| {
        assert results[k] == all[k];
      }
    }
    if Reported(results, f) {
      var k :| 0 <= k < |results| && results[k].file == f;
      assert all[k] == results[k];
    }
    assert all[|results|] == r;
  }

  /** A file is reported exactly when it is listed and the rewrite changes it,
      which is exactly when the run changes it on disk: nothing else is written. */
  lemma {:induction false} RunReportsChangedFiles(rewrite: string -> (string, nat), disk: map<string, string>, files: seq<string>)
    requires Settles(rewrite) && CountsChanges(rewrite)
    requires forall k :: 0 <= k < |files| ==> files[k] in disk
    ensures var out := RunOver(rewrite, disk, files);
      forall f :: f in disk ==>
        (Reported(out.results, f) <==> f in files && rewrite(disk[f]).0 != disk[f]) &&
        (Reported(out.results, f) <==> out.disk[f] != disk[f])
    decreases |files|
  {
    if files != [] {
      var prefix, file := files[..|files| - 1], files[|files| - 1];
      RunReportsChangedFiles(rewrite, disk, prefix);
      assert files == prefix + [file];
      ReportsStep(rewrite, disk, prefix, file);
    }
  }

  /** The inductive step of RunReportsChangedFiles: one more file. */
  lemma ReportsStep(rewrite: string -> (string, nat), disk: map<string, string>, prefix: seq<string>, file: string)
    requires Settles(rewrite) && CountsChanges(rewrite)
    requires forall k :: 0 <= k < |prefix| ==> prefix[k] in disk
    requires file in disk
    requires var st := RunOver(rewrite, disk, prefix);
      forall f :: f in disk ==>
        (Reported(st.results, f) <==> f in prefix && rewrite(disk[f]).0 != disk[f]) &&
        (Reported(st.results, f) <==> st.disk[f] != disk[f])
    ensures var out := Step(rewrite, RunOver(rewrite, disk, prefix), file);
      forall f :: f in disk ==>
        (Reported(out.results, f) <==> f in prefix + [file] && rewrite(disk[f]).0 != disk[f]) &&
        (Reported(out.results, f) <==> out.disk[f] != disk[f])
  {
    var st := RunOver(rewrite, disk, prefix);
    var out := Step(rewrite, st, file);
    RunFiles(rewrite, disk, prefix);
    if rewrite(st.disk[file]).1 == 0 {
      ReportsUnchangedFile(rewrite, disk, prefix, file, st, out);
    } else {
      assert file !in prefix;
      ReportsNewFile(rewrite, disk, prefix, file, st, out);
    }
  }

  /** The step of RunReportsChangedFiles where the file rewrites with a count
      of zero: nothing is reported or written. */
  lemma ReportsUnchangedFile(rewrite: string -> (string, nat), disk: map<string, string>, prefix: seq<string>,
                             file: string, st: RunState, out: RunState)
    requires st.disk.Keys == disk.Keys && file in disk && rewrite(st.disk[file]).1 == 0
    requires CountsChanges(rewrite)
    requires file !in prefix ==> st.disk[file] == disk[file]
    requires forall f :: f in disk ==>
        (Reported(st.results, f) <==> f in prefix && rewrite(disk[f]).0 != disk[f]) &&
        (Reported(st.results, f) <==> st.disk[f] != disk[f])
    requires out == Step(rewrite, st, file)
    ensures forall f :: f in disk ==>
        (Reported(out.results, f) <==> f in prefix + [file] && rewrite(disk[f]).0 != disk[f]) &&
        (Reported(out.results, f) <==> out.disk[f] != disk[f])
  {
    assert out == st;
    assert file !in prefix ==> rewrite(disk[file]).0 == disk[file];
    assert forall f :: f in prefix + [file] <==> f in prefix || f == file;
  }

  /** The step of RunReportsChangedFiles where a file not listed before is
      rewritten with a positive count. */
  lemma ReportsNewFile(rewrite: string -> (string, nat), disk: map<string, string>, prefix: seq<string>,
                       file: string, st: RunState, out: RunState)
    requires file in disk && file !in prefix && rewrite(disk[file]).1 > 0
    requires CountsChanges(rewrite)
    requires st.disk.Keys == disk.Keys && st.disk[file] == disk[file]
    requires forall f :: f in disk ==>
        (Reported(st.results, f) <==> f in prefix && rewrite(disk[f]).0 != disk[f]) &&
        (Reported(st.results, f) <==> st.disk[f] != disk[f])
    requires out == Step(rewrite, st, file)
    ensures forall f :: f in disk ==>
        (Reported(out.results, f) <==> f in prefix + [file] && rewrite(disk[f]).0 != disk[f]) &&
        (Reported(out.results, f) <==> out.disk[f] != disk[f])
  {
    var n := rewrite(disk[file]).1;
    assert out.results == st.results + [FileResult(file, n)];
    assert out.disk == st.disk[file := rewrite(disk[file]).0];
    forall f | f in disk
      ensures (Reported(out.results, f) <==> f in prefix + [file] && rewrite(disk[f]).0 != disk[f]) &&
              (Reported(out.results, f) <==> out.disk[f] != disk[f])
    {
      ReportedAppend(st.results, FileResult(file, n), f);
    }
  }

  /** The files of `files` the rewrite changes, in the order they are listed,
      each with its own count: what `results` should be. */
  function Expected(rewrite: string -> (string, nat), disk: map<string, string>, files: seq<string>): (r: seq<FileResult>)
    requires forall k :: 0 <= k < |files| ==> files[k] in disk
    ensures |r| <= |files|
    decreases |files|
  {
    if files == [] then []
    else
      var prefix, file := files[..|files| - 1], files[|files| - 1];
      var n := rewrite(disk[file]).1;
      Expected(rewrite, disk, prefix) + (if n > 0 then [FileResult(file, n)] else [])
  }

  /** No path is listed twice. */
  predicate Distinct(files: seq<string>) {
    forall i, j :: 0 <= i < j < |files| ==> files[i] != files[j]
  }

  /** A file the run is not given keeps its content. */
  lemma {:induction false} RunUntouched(rewrite: string -> (string, nat), disk: map<string, string>, files: seq<string>, f: string)
    requires forall k :: 0 <= k < |files| ==> files[k] in disk
    requires f in disk && f !in files
    ensures RunOver(rewrite, disk, files).disk[f] == disk[f]
    decreases |files|
  {
    if files != [] {
      var prefix := files[..|files| - 1];
      assert forall g :: g in prefix ==> g in files;
      RunUntouched(rewrite, disk, prefix, f);
    }
  }

  /** With every path listed once, `results` holds exactly the changed files,
      in the order of `files`, each with the count of its own rewrite. */
  lemma {:induction false} RunResults(rewrite: string -> (string, nat), disk: map<string, string>, files: seq<string>)
    requires forall k :: 0 <= k < |files| ==> files[k] in disk
    requires Distinct(files)
    ensures RunOver(rewrite, disk, files).results == Expected(rewrite, disk, files)
    decreases |files|
  {
    if files != [] {
      var prefix, file := files[..|files| - 1], files[|files| - 1];
      assert Distinct(prefix);
      assert file !in prefix;
      RunResults(rewrite, disk, prefix);
      RunUntouched(rewrite, disk, prefix, file);
    }
  }

  /** Even when a path is listed more than once, a rewrite that settles reports
      it at most once, and every reported count is the file's own count. */
  lemma {:induction false} RunReportsOnce(rewrite: string -> (string, nat), disk: map<string, string>, files: seq<string>)
    requires Settles(rewrite) && CountsChanges(rewrite)
    requires forall k :: 0 <= k < |files| ==> files[k] in disk
    ensures var out := RunOver(rewrite, disk, files);
      (forall i, j :: 0 <= i < j < |out.results| ==> out.results[i].file != out.results[j].file) &&
      (forall k :: 0 <= k < |out.results| ==>
        out.results[k].file in disk && out.results[k].replacements == rewrite(disk[out.results[k].file]).1)
    decreases |files|
  {
    if files != [] {
      var prefix, file := files[..|files| - 1], files[|files| - 1];
      RunReportsOnce(rewrite, disk, prefix);
      var st := RunOver(rewrite, disk, prefix);
      var n := rewrite(st.disk[file]).1;
      if n > 0 {
        RunFiles(rewrite, disk, prefix);
        assert file !in prefix;
        RunUntouched(rewrite, disk, prefix, file);
        RunReportsChangedFiles(rewrite, disk, prefix);
        assert !Reported(st.results, file);
        var out := st.results + [FileResult(file, n)];
        assert RunOver(rewrite, disk, files).results == out;
        forall i, j | 0 <= i < j < |out| ensures out[i].file != out[j].file {
          if j == |st.results| {
            assert out[i] == st.results[i];
          } else {
            assert out[i] == st.results[i] && out[j] == st.results[j];
          }
        }
        forall k | 0 <= k < |out|
          ensures out[k].file in disk && out[k].replacements == rewrite(disk[out[k].file]).1
        {
          if k < |st.results| {
            assert out[k] == st.results[k];
          }
        }
      }
    }
  }

  /** A run over files that all rewrite with a count of zero reports and writes nothing. */
  lemma {:induction false} RunOverFixed(rewrite: string -> (string, nat), disk: map<string, string>, files: seq<string>)
    requires forall k :: 0 <= k < |files| ==> files[k] in disk && rewrite(disk[files[k]]).1 == 0
    ensures RunOver(rewrite, disk, files) == RunState([], 0, disk)
    decreases |files|
  {
    if files != [] {
      RunOverFixed(rewrite, disk, files[..|files| - 1]);
    }
  }

  /** Running a second time over the output finds nothing: no replacements,
      no results and no writes. */
  lemma SecondRunFindsNothing(rewrite: string -> (string, nat), disk: map<string, string>, files: seq<string>)
    requires Settles(rewrite) && CountsChanges(rewrite)
    requires forall k :: 0 <= k < |files| ==> files[k] in disk
    ensures var out := RunOver(rewrite, disk, files);
      RunOver(rewrite, out.disk, files) == RunState([], 0, out.disk)
  {
    var out := RunOver(rewrite, disk, files);
    RunFiles(rewrite, disk, files);
    RunOverFixed(rewrite, out.disk, files);
  }

  /** The script itself, which runs with the rename table: the total is the sum
      of the reported counts, every listed file ends up rewritten and nothing
      else is touched, exactly the changed files are reported, each at most once,
      in the order listed and with the number of matches its content had, and
      running the script again over its output changes and reports nothing. */
  lemma ScriptRun(disk: map<string, string>, files: seq<string>)
    requires forall k :: 0 <= k < |files| ==> files[k] in disk
    ensures var rewrite := Rewriter(Renames);
      var out := RunOver(rewrite, disk, files);
      out.total == SumReplacements(out.results) && AllPositive(out.results) &&
      (forall f :: f in disk ==> out.disk[f] == if f in files then rewrite(disk[f]).0 else disk[f]) &&
      (forall f :: f in disk ==> (Reported(out.results, f) <==> out.disk[f] != disk[f])) &&
      (forall i, j :: 0 <= i < j < |out.results| ==> out.results[i].file != out.results[j].file) &&
      (forall k :: 0 <= k < |out.results| ==>
        out.results[k].file in disk && out.results[k].replacements == TableCount(disk[out.results[k].file], Renames)) &&
      (Distinct(files) ==> out.results == Expected(rewrite, disk, files)) &&
      RunOver(rewrite, out.disk, files) == RunState([], 0, out.disk)
  {
    var rewrite := Rewriter(Renames);
    RenamesWellFormed();
    RewriterSettles(Renames);
    RunTotals(rewrite, disk, files);
    RunFiles(rewrite, disk, files);
    RunReportsChangedFiles(rewrite, disk, files);
    RunReportsOnce(rewrite, disk, files);
    RenamesSingularsDistinct();
    var out := RunOver(rewrite, disk, files);
    forall k | 0 <= k < |out.results|
      ensures out.results[k].replacements == TableCount(disk[out.results[k].file], Renames)
    {
      RewriteCountsMatches(disk[out.results[k].file], Renames);
    }
    if Distinct(files) {
      RunResults(rewrite, disk, files);
    }
    SecondRunFindsNothing(rewrite, disk, files);
  }
}

=== FILE: RenameTable.dfy ===
/** The rename table of the codemod: for each Prisma client accessor it
    rewrites, the name it rewrites (such as `user`) and the table-style name it
    writes instead (such as `users`). */
module RenameTable {
  import opened WordMatch

  /** One `[singular, plural]` pair of `Object.entries(map)`. */
  datatype Rename = Rename(singular: string, plural: string)

  /** The two receivers the codemod rewrites: the client and a transaction client. */
  const Prisma: string := "prisma"
  const Tx: string := "tx"

  // The table is written in four parts so that the verifier can index each
  // literal; Renames is their concatenation, in the order of the table.
  /** Entries 0 to 12. */
  const Part0: seq<Rename> := [
    Rename("user", "users"),
    Rename("post", "posts"),
    Rename("booking", "bookings"),
    Rename("service", "services"),
    Rename("teamMember", "team_members"),
    Rename("language", "languages"),
    Rename("customRole", "custom_roles"),
    Rename("serviceRequest", "service_requests"),
    Rename("auditLog", "audit_logs"),
    Rename("contactSubmission", "contact_submissions"),
    Rename("chatMessage", "chat_messages"),
    Rename("expense", "expenses"),
    Rename("invoice", "invoices")
  ]

  /** Entries 13 to 25. */
  const Part1: seq<Rename> := [
    Rename("invoiceItem", "invoice_items"),
    Rename("organizationSettings", "organization_settings"),
    Rename("tenantMembership", "tenant_memberships"),
    Rename("permissionTemplate", "permission_templates"),
    Rename("bulkOperation", "bulk_operations"),
    Rename("bulkOperationResult", "bulk_operation_results"),
    Rename("bulkOperationHistory", "bulk_operation_history"),
    Rename("organizationLocalizationSettings", "org_localization_settings"),
    Rename("crowdinIntegration", "crowdin_integrations"),
    Rename("verificationToken", "verificationtokens"),
    Rename("settingChangeDiff", "setting_change_diffs"),
    Rename("auditEvent", "audit_events"),
    Rename("translationKey", "translation_keys")
  ]

  /** Entries 26 to 38. */
  const Part2: seq<Rename> := [
    Rename("translationMetrics", "translation_metrics"),
    Rename("userProfile", "user_profiles"),
    Rename("regionalFormat", "regional_formats"),
    Rename("menuCustomization", "menu_customizations"),
    Rename("favoriteSetting", "favorite_settings"),
    Rename("permissionAudit", "permission_audits"),
    Rename("taskTemplate", "task_templates"),
    Rename("requestTask", "request_tasks"),
    Rename("bookingSettings", "booking_settings"),
    Rename("bookingStepConfig", "booking_step_config"),
    Rename("businessHoursConfig", "business_hours_config"),
    Rename("paymentMethodConfig", "payment_method_config"),
    Rename("notificationTemplate", "notification_templates")
  ]

  /** Entries 39 to 50. */
  const Part3: seq<Rename> := [
    Rename("serviceRequestComment", "service_request_comments"),
    Rename("notificationSettings", "notification_settings"),
    Rename("sidebarPreferences", "sidebar_preferences"),
    Rename("translationPriority", "translation_priorities"),
    Rename("integrationSettings", "integration_settings"),
    Rename("workflowTemplate", "workflow_templates"),
    Rename("userWorkflow", "user_workflows"),
    Rename("workflowStep", "workflow_steps"),
    Rename("workflowHistory", "workflow_history"),
    Rename("workflowNotification", "workflow_notifications"),
    Rename("userPermission", "user_permissions"),
    Rename("cronTelemetrySettings", "cron_telemetry_settings")
  ]

  /** The table `map`, in insertion order, which is the order of `Object.entries`. */
  const Renames: seq<Rename> := Part0 + Part1 + Part2 + Part3

  /** What rewriting needs of a table for a second run to find nothing:
      every name is an identifier, no name is a receiver, and no plural is also
      a singular, so that a rewritten accessor is never rewritten again. */
  ghost predicate WellFormed(table: seq<Rename>) {
    (forall k :: 0 <= k < |table| ==> IsWord(table[k].singular) && IsWord(table[k].plural)) &&
    (forall k :: 0 <= k < |table| ==>
      table[k].singular != Prisma && table[k].singular != Tx &&
      table[k].plural != Prisma && table[k].plural != Tx) &&
    (forall k, m :: 0 <= k < |table| && 0 <= m < |table| ==> table[k].plural != table[m].singular)
  }

  /** No two entries share a singular, as the keys of an object cannot. */
  predicate DistinctSingulars(table: seq<Rename>) {
    forall k, m :: 0 <= k < m < |table| ==> table[k].singular != table[m].singular
  }

  /** The receivers are identifiers, and they differ. */
  lemma ReceiversAreWords()
    ensures IsWord(Prisma) && IsWord(Tx) && Prisma != Tx
  {
    assert Prisma[0] != Tx[0];
  }

  // Facts about the literals. Each lemma below handles one entry, or one pair
  // of parts, so that each proof obligation mentions only a few literal names
  // and stays small.

  lemma Part0Words0()
    ensures IsWord("user") && IsWord("users")
  {
  }

  lemma Part0Words1()
    ensures IsWord("post") && IsWord("posts")
  {
  }

  lemma Part0Words2()
    ensures IsWord("booking") && IsWord("bookings")
  {
  }

  lemma Part0Words3()
    ensures IsWord("service") && IsWord("services")
  {
  }

  lemma Part0Words4()
    ensures IsWord("teamMember") && IsWord("team_members")
  {
  }

  lemma Part0Words5()
    ensures IsWord("language") && IsWord("languages")
  {
  }

  lemma Part0Words6()
    ensures IsWord("customRole") && IsWord("custom_roles")
  {
  }

  lemma Part0Words7()
    ensures IsWord("serviceRequest") && IsWord("service_requests")
  {
  }

  lemma Part0Words8()
    ensures IsWord("auditLog") && IsWord("audit_logs")
  {
  }

  lemma Part0Words9()
    ensures IsWord("contactSubmission") && IsWord("contact_submissions")
  {
  }

  lemma Part0Words10()
    ensures IsWord("chatMessage") && IsWord("chat_messages")
  {
  }

  lemma Part0Words11()
    ensures IsWord("expense") && IsWord("expenses")
  {
  }

  lemma Part0Words12()
    ensures IsWord("invoice") && IsWord("invoices")
  {
  }

  lemma Part0Words()
    ensures forall k :: 0 <= k < |Part0| ==> IsWord(Part0[k].singular) && IsWord(Part0[k].plural)
  {
    Part0Words0();
    Part0Words1();
    Part0Words2();
    Part0Words3();
    Part0Words4();
    Part0Words5();
    Part0Words6();
    Part0Words7();
    Part0Words8();
    Part0Words9();
    Part0Words10();
    Part0Words11();
    Part0Words12();
  }

  lemma Part0NotReceivers()
    ensures forall k :: 0 <= k < |Part0| ==>
      Part0[k].singular != Prisma && Part0[k].singular != Tx &&
      Part0[k].plural != Prisma && Part0[k].plural != Tx
  {
  }

  lemma Part1Words0()
    ensures IsWord("invoiceItem") && IsWord("invoice_items")
  {
  }

  lemma Part1Words1()
    ensures IsWord("organizationSettings") && IsWord("organization_settings")
  {
  }

  lemma Part1Words2()
    ensures IsWord("tenantMembership") && IsWord("tenant_memberships")
  {
  }

  lemma Part1Words3()
    ensures IsWord("permissionTemplate") && IsWord("permission_templates")
  {
  }

  lemma Part1Words4()
    ensures IsWord("bulkOperation") && IsWord("bulk_operations")
  {
  }

  lemma Part1Words5()
    ensures IsWord("bulkOperationResult") && IsWord("bulk_operation_results")
  {
  }

  lemma Part1Words6()
    ensures IsWord("bulkOperationHistory") && IsWord("bulk_operation_history")
  {
  }

  lemma Part1Words7()
    ensures IsWord("organizationLocalizationSettings") && IsWord("org_localization_settings")
  {
  }

  lemma Part1Words8()
    ensures IsWord("crowdinIntegration") && IsWord("crowdin_integrations")
  {
  }

  lemma Part1Words9()
    ensures IsWord("verificationToken") && IsWord("verificationtokens")
  {
  }

  lemma Part1Words10()
    ensures IsWord("settingChangeDiff") && IsWord("setting_change_diffs")
  {
  }

  lemma Part1Words11()
    ensures IsWord("auditEvent") && IsWord("audit_events")
  {
  }

  lemma Part1Words12()
    ensures IsWord("translationKey") && IsWord("translation_keys")
  {
  }

  lemma Part1Words()
    ensures forall k :: 0 <= k < |Part1| ==> IsWord(Part1[k].singular) && IsWord(Part1[k].plural)
  {
    Part1Words0();
    Part1Words1();
    Part1Words2();
    Part1Words3();
    Part1Words4();
    Part1Words5();
    Part1Words6();
    Part1Words7();
    Part1Words8();
    Part1Words9();
    Part1Words10();
    Part1Words11();
    Part1Words12();
  }

  lemma Part1NotReceivers()
    ensures forall k :: 0 <= k < |Part1| ==>
      Part1[k].singular != Prisma && Part1[k].singular != Tx &&
      Part1[k].plural != Prisma && Part1[k].plural != Tx
  {
  }

  lemma Part2Words0()
    ensures IsWord("translationMetrics") && IsWord("translation_metrics")
  {
  }

  lemma Part2Words1()
    ensures IsWord("userProfile") && IsWord("user_profiles")
  {
  }

  lemma Part2Words2()
    ensures IsWord("regionalFormat") && IsWord("regional_formats")
  {
  }

  lemma Part2Words3()
    ensures IsWord("menuCustomization") && IsWord("menu_customizations")
  {
  }

  lemma Part2Words4()
    ensures IsWord("favoriteSetting") && IsWord("favorite_settings")
  {
  }

  lemma Part2Words5()
    ensures IsWord("permissionAudit") && IsWord("permission_audits")
  {
  }

  lemma Part2Words6()
    ensures IsWord("taskTemplate") && IsWord("task_templates")
  {
  }

  lemma Part2Words7()
    ensures IsWord("requestTask") && IsWord("request_tasks")
  {
  }

  lemma Part2Words8()
    ensures IsWord("bookingSettings") && IsWord("booking_settings")
  {
  }

  lemma Part2Words9()
    ensures IsWord("bookingStepConfig") && IsWord("booking_step_config")
  {
  }

  lemma Part2Words10()
    ensures IsWord("businessHoursConfig") && IsWord("business_hours_config")
  {
  }

  lemma Part2Words11()
    ensures IsWord("paymentMethodConfig") && IsWord("payment_method_config")
  {
  }

  lemma Part2Words12()
    ensures IsWord("notificationTemplate") && IsWord("notification_templates")
  {
  }

  lemma Part2Words()
    ensures forall k :: 0 <= k < |Part2| ==> IsWord(Part2[k].singular) && IsWord(Part2[k].plural)
  {
    Part2Words0();
    Part2Words1();
    Part2Words2();
    Part2Words3();
    Part2Words4();
    Part2Words5();
    Part2Words6();
    Part2Words7();
    Part2Words8();
    Part2Words9();
    Part2Words10();
    Part2Words11();
    Part2Words12();
  }

  lemma Part2NotReceivers()
    ensures forall k :: 0 <= k < |Part2| ==>
      Part2[k].singular != Prisma && Part2[k].singular != Tx &&
      Part2[k].plural != Prisma && Part2[k].plural != Tx
  {
  }

  lemma Part3Words0()
    ensures IsWord("serviceRequestComment") && IsWord("service_request_comments")
  {
  }

  lemma Part3Words1()
    ensures IsWord("notificationSettings") && IsWord("notification_settings")
  {
  }

  lemma Part3Words2()
    ensures IsWord("sidebarPreferences") && IsWord("sidebar_preferences")
  {
  }

  lemma Part3Words3()
    ensures IsWord("translationPriority") && IsWord("translation_priorities")
  {
  }

  lemma Part3Words4()
    ensures IsWord("integrationSettings") && IsWord("integration_settings")
  {
  }

  lemma Part3Words5()
    ensures IsWord("workflowTemplate") && IsWord("workflow_templates")
  {
  }

  lemma Part3Words6()
    ensures IsWord("userWorkflow") && IsWord("user_workflows")
  {
  }

  lemma Part3Words7()
    ensures IsWord("workflowStep") && IsWord("workflow_steps")
  {
  }

  lemma Part3Words8()
    ensures IsWord("workflowHistory") && IsWord("workflow_history")
  {
  }

  lemma Part3Words9()
    ensures IsWord("workflowNotification") && IsWord("workflow_notifications")
  {
  }

  lemma Part3Words10()
    ensures IsWord("userPermission") && IsWord("user_permissions")
  {
  }

  lemma Part3Words11()
    ensures IsWord("cronTelemetrySettings") && IsWord("cron_telemetry_settings")
  {
  }

  lemma Part3Words()
    ensures forall k :: 0 <= k < |Part3| ==> IsWord(Part3[k].singular) && IsWord(Part3[k].plural)
  {
    Part3Words0();
    Part3Words1();
    Part3Words2();
    Part3Words3();
    Part3Words4();
    Part3Words5();
    Part3Words6();
    Part3Words7();
    Part3Words8();
    Part3Words9();
    Part3Words10();
    Part3Words11();
  }

  lemma Part3NotReceivers()
    ensures forall k :: 0 <= k < |Part3| ==>
      Part3[k].singular != Prisma && Part3[k].singular != Tx &&
      Part3[k].plural != Prisma && Part3[k].plural != Tx
  {
  }

  lemma Part0PluralsNotPart0Singulars()
    ensures forall k, l :: 0 <= k < |Part0| && 0 <= l < |Part0| ==> Part0[k].plural != Part0[l].singular
  {
  }

  lemma Part0PluralsNotPart1Singulars()
    ensures forall k, l :: 0 <= k < |Part0| && 0 <= l < |Part1| ==> Part0[k].plural != Part1[l].singular
  {
  }

  lemma Part0PluralsNotPart2Singulars()
    ensures forall k, l :: 0 <= k < |Part0| && 0 <= l < |Part2| ==> Part0[k].plural != Part2[l].singular
  {
  }

  lemma Part0PluralsNotPart3Singulars()
    ensures forall k, l :: 0 <= k < |Part0| && 0 <= l < |Part3| ==> Part0[k].plural != Part3[l].singular
  {
  }

  lemma Part1PluralsNotPart0Singulars()
    ensures forall k, l :: 0 <= k < |Part1| && 0 <= l < |Part0| ==> Part1[k].plural != Part0[l].singular
  {
  }

  lemma Part1PluralsNotPart1Singulars()
    ensures forall k, l :: 0 <= k < |Part1| && 0 <= l < |Part1| ==> Part1[k].plural != Part1[l].singular
  {
  }

  lemma Part1PluralsNotPart2Singulars()
    ensures forall k, l :: 0 <= k < |Part1| && 0 <= l < |Part2| ==> Part1[k].plural != Part2[l].singular
  {
  }

  lemma Part1PluralsNotPart3Singulars()
    ensures forall k, l :: 0 <= k < |Part1| && 0 <= l < |Part3| ==> Part1[k].plural != Part3[l].singular
  {
  }

  lemma Part2PluralsNotPart0Singulars()
    ensures forall k, l :: 0 <= k < |Part2| && 0 <= l < |Part0| ==> Part2[k].plural != Part0[l].singular
  {
  }

  lemma Part2PluralsNotPart1Singulars()
    ensures forall k, l :: 0 <= k < |Part2| && 0 <= l < |Part1| ==> Part2[k].plural != Part1[l].singular
  {
  }

  lemma Part2PluralsNotPart2Singulars()
    ensures forall k, l :: 0 <= k < |Part2| && 0 <= l < |Part2| ==> Part2[k].plural != Part2[l].singular
  {
  }

  lemma Part2PluralsNotPart3Singulars()
    ensures forall k, l :: 0 <= k < |Part2| && 0 <= l < |Part3| ==> Part2[k].plural != Part3[l].singular
  {
  }

  lemma Part3PluralsNotPart0Singulars()
    ensures forall k, l :: 0 <= k < |Part3| && 0 <= l < |Part0| ==> Part3[k].plural != Part0[l].singular
  {
  }

  lemma Part3PluralsNotPart1Singulars()
    ensures forall k, l :: 0 <= k < |Part3| && 0 <= l < |Part1| ==> Part3[k].plural != Part1[l].singular
  {
  }

  lemma Part3PluralsNotPart2Singulars()
    ensures forall k, l :: 0 <= k < |Part3| && 0 <= l < |Part2| ==> Part3[k].plural != Part2[l].singular
  {
  }

  lemma Part3PluralsNotPart3Singulars()
    ensures forall k, l :: 0 <= k < |Part3| && 0 <= l < |Part3| ==> Part3[k].plural != Part3[l].singular
  {
  }

  lemma Part0SingularsDistinct()
    ensures forall k, l :: 0 <= k < l < |Part0| ==> Part0[k].singular != Part0[l].singular
  {
  }

  lemma Part0SingularsNotPart1Singulars()
    ensures forall k, l :: 0 <= k < |Part0| && 0 <= l < |Part1| ==> Part0[k].singular != Part1[l].singular
  {
  }

  lemma Part0SingularsNotPart2Singulars()
    ensures forall k, l :: 0 <= k < |Part0| && 0 <= l < |Part2| ==> Part0[k].singular != Part2[l].singular
  {
  }

  lemma Part0SingularsNotPart3Singulars()
    ensures forall k, l :: 0 <= k < |Part0| && 0 <= l < |Part3| ==> Part0[k].singular != Part3[l].singular
  {
  }

  lemma Part1SingularsDistinct()
    ensures forall k, l :: 0 <= k < l < |Part1| ==> Part1[k].singular != Part1[l].singular
  {
  }

  lemma Part1SingularsNotPart2Singulars()
    ensures forall k, l :: 0 <= k < |Part1| && 0 <= l < |Part2| ==> Part1[k].singular != Part2[l].singular
  {
  }

  lemma Part1SingularsNotPart3Singulars()
    ensures forall k, l :: 0 <= k < |Part1| && 0 <= l < |Part3| ==> Part1[k].singular != Part3[l].singular
  {
  }

  lemma Part2SingularsDistinct()
    ensures forall k, l :: 0 <= k < l < |Part2| ==> Part2[k].singular != Part2[l].singular
  {
  }

  lemma Part2SingularsNotPart3Singulars()
    ensures forall k, l :: 0 <= k < |Part2| && 0 <= l < |Part3| ==> Part2[k].singular != Part3[l].singular
  {
  }

  lemma Part3SingularsDistinct()
    ensures forall k, l :: 0 <= k < l < |Part3| ==> Part3[k].singular != Part3[l].singular
  {
  }

  /** Where each entry of the table sits among the four parts. */
  lemma RenamesParts()
    ensures |Renames| == 51
    ensures forall k :: 0 <= k < |Renames| ==>
      Renames[k] == (if k < 13 then Part0[k] else if k < 26 then Part1[k - 13]
                     else if k < 39 then Part2[k - 26] else Part3[k - 39])
  {
  }

  lemma RenamesWords()
    ensures forall k :: 0 <= k < |Renames| ==> IsWord(Renames[k].singular) && IsWord(Renames[k].plural)
  {
    RenamesParts();
    Part0Words();
    Part1Words();
    Part2Words();
    Part3Words();
  }

  lemma RenamesNotReceivers()
    ensures forall k :: 0 <= k < |Renames| ==>
      Renames[k].singular != Prisma && Renames[k].singular != Tx &&
      Renames[k].plural != Prisma && Renames[k].plural != Tx
  {
    RenamesParts();
    Part0NotReceivers();
    Part1NotReceivers();
    Part2NotReceivers();
    Part3NotReceivers();
  }

  lemma RenamesPluralsNotSingulars()
    ensures forall k, m :: 0 <= k < |Renames| && 0 <= m < |Renames| ==> Renames[k].plural != Renames[m].singular
  {
    RenamesParts();
    Part0PluralsNotPart0Singulars();
    Part0PluralsNotPart1Singulars();
    Part0PluralsNotPart2Singulars();
    Part0PluralsNotPart3Singulars();
    Part1PluralsNotPart0Singulars();
    Part1PluralsNotPart1Singulars();
    Part1PluralsNotPart2Singulars();
    Part1PluralsNotPart3Singulars();
    Part2PluralsNotPart0Singulars();
    Part2PluralsNotPart1Singulars();
    Part2PluralsNotPart2Singulars();
    Part2PluralsNotPart3Singulars();
    Part3PluralsNotPart0Singulars();
    Part3PluralsNotPart1Singulars();
    Part3PluralsNotPart2Singulars();
    Part3PluralsNotPart3Singulars();
  }

  /** The singulars are the keys of an object literal: no two entries share one. */
  lemma RenamesSingularsDistinct()
    ensures DistinctSingulars(Renames)
  {
    RenamesParts();
    Part0SingularsDistinct();
    Part0SingularsNotPart1Singulars();
    Part0SingularsNotPart2Singulars();
    Part0SingularsNotPart3Singulars();
    Part1SingularsDistinct();
    Part1SingularsNotPart2Singulars();
    Part1SingularsNotPart3Singulars();
    Part2SingularsDistinct();
    Part2SingularsNotPart3Singulars();
    Part3SingularsDistinct();
  }

  /** The table has 51 entries and is well formed. */
  lemma RenamesWellFormed()
    ensures |Renames| == 51
    ensures WellFormed(Renames)
  {
    RenamesParts();
    RenamesWords();
    RenamesNotReceivers();
    RenamesPluralsNotSingulars();
  }
}

=== FILE: WordMatch.dfy ===
/**
 * Literal member-access patterns with word boundaries, as the rename codemod
 * builds them: `new RegExp('\\b' + root + '\\.' + name + '\\b', 'g')`.
 *
 * `MatchAt` is what one attempt of the regular expression at one position
 * decides; `Occurrences` is the list of matches a global scan finds (what
 * `text.match(re)` returns), `CountMatches` its length, and `ReplaceAll` is
 * `text.replace(re, replacement)` with a replacement free of `$` patterns.
 */
module WordMatch {

  /** `\w` of a regular expression without the `u` flag: [A-Za-z0-9_]. */
  predicate IsWordChar(c: char) {
    ('a' <= c <= 'z') || ('A' <= c <= 'Z') || ('0' <= c <= '9') || c == '_'
  }

  /** A non-empty run of word characters (an identifier without `$`). */
  predicate IsWord(s: string) {
    |s| > 0 && forall i :: 0 <= i < |s| ==> IsWordChar(s[i])
  }

  /** The text `<root>.<name>` that a pattern stands for. */
  function Access(root: string, name: string): string {
    root + "." + name
  }

  /** `\b` at position k: exactly one of the characters on either side of k is a
      word character; a position outside s counts as a non-word character. */
  predicate IsBoundary(s: string, k: nat)
    requires k <= |s|
  {
    (k > 0 && IsWordChar(s[k - 1])) != (k < |s| && IsWordChar(s[k]))
  }

  /** `\b<pat>\b` matches s at position i. */
  predicate MatchAt(s: string, pat: string, i: nat) {
    i + |pat| <= |s| && s[i..i + |pat|] == pat && IsBoundary(s, i) && IsBoundary(s, i + |pat|)
  }

  /** The start positions a global scan finds from position i on: it tries every
      position from left to right and, after a match, resumes where it ended. */
  function OccurrencesFrom(s: string, pat: string, i: nat): (r: seq<nat>)
    requires pat != [] && i <= |s|
    ensures forall k :: 0 <= k < |r| ==> i <= r[k] && r[k] + |pat| <= |s|
    ensures forall k :: 0 < k < |r| ==> r[k - 1] + |pat| <= r[k]
    decreases |s| - i
  {
    if i == |s| then []
    else if MatchAt(s, pat, i) then [i] + OccurrencesFrom(s, pat, i + |pat|)
    else OccurrencesFrom(s, pat, i + 1)
  }

  /** Every reported position is a match. */
  lemma {:induction false} OccurrencesFromSound(s: string, pat: string, i: nat, k: nat)
    requires pat != [] && i <= |s| && k < |OccurrencesFrom(s, pat, i)|
    ensures MatchAt(s, pat, OccurrencesFrom(s, pat, i)[k])
    decreases |s| - i
  {
    if MatchAt(s, pat, i) {
      if k > 0 {
        OccurrencesFromSound(s, pat, i + |pat|, k - 1);
      }
    } else {
      OccurrencesFromSound(s, pat, i + 1, k);
    }
  }

  /** The first position the scan reports is at or before any match at or
      after i (so, with OccurrencesFromSound, it is the leftmost). A later match
      that overlaps a reported one is skipped, as in a global regular expression. */
  lemma {:induction false} OccurrencesFromFirst(s: string, pat: string, i: nat, p: nat)
    requires pat != [] && i <= p && MatchAt(s, pat, p)
    ensures OccurrencesFrom(s, pat, i) != [] && OccurrencesFrom(s, pat, i)[0] <= p
    decreases |s| - i
  {
    if !MatchAt(s, pat, i) {
      OccurrencesFromFirst(s, pat, i + 1, p);
    }
  }

  /** The matches of `text.match(re)` for a global `re`. */
  function Occurrences(s: string, pat: string): seq<nat>
    requires pat != []
  {
    OccurrencesFrom(s, pat, 0)
  }

  /** `(text.match(re) || []).length`. */
  function CountMatches(s: string, pat: string): nat
    requires pat != []
  {
    |Occurrences(s, pat)|
  }

  /** The output of the global replacement for the part of s from position i on. */
  function ReplaceFrom(s: string, pat: string, rep: string, i: nat): string
    requires pat != [] && i <= |s|
    decreases |s| - i
  {
    if i == |s| then []
    else if MatchAt(s, pat, i) then rep + ReplaceFrom(s, pat, rep, i + |pat|)
    else [s[i]] + ReplaceFrom(s, pat, rep, i + 1)
  }

  /** `text.replace(re, rep)` for a global `re`. */
  function ReplaceAll(s: string, pat: string, rep: string): string
    requires pat != []
  {
    ReplaceFrom(s, pat, rep, 0)
  }

  /** No position of s matches pat. */
  ghost predicate Clean(s: string, pat: string) {
    forall i: nat :: !MatchAt(s, pat, i)
  }

  // ---------------------------------------------------------------------
  // Decomposition: the text between matches (the gaps) is kept, each match
  // is replaced by the replacement, and there is one gap more than matches.
  // ---------------------------------------------------------------------

  /** The texts between consecutive matches; g is where the current gap began. */
  ghost function GapsFrom(s: string, pat: string, g: nat, i: nat): (r: seq<string>)
    requires pat != [] && g <= i <= |s|
    ensures |r| >= 1
    decreases |s| - i
  {
    if i == |s| then [s[g..]]
    else if MatchAt(s, pat, i) then [s[g..i]] + GapsFrom(s, pat, i + |pat|, i + |pat|)
    else GapsFrom(s, pat, g, i + 1)
  }

  ghost function Gaps(s: string, pat: string): (r: seq<string>)
    requires pat != []
    ensures |r| >= 1
  {
    GapsFrom(s, pat, 0, 0)
  }

  /** The parts with sep between each two consecutive parts. */
  ghost function Join(parts: seq<string>, sep: string): string
    requires |parts| >= 1
    decreases |parts|
  {
    if |parts| == 1 then parts[0] else parts[0] + sep + Join(parts[1..], sep)
  }

  lemma {:induction false} GapsFromCount(s: string, pat: string, g: nat, i: nat)
    requires pat != [] && g <= i <= |s|
    ensures |GapsFrom(s, pat, g, i)| == |OccurrencesFrom(s, pat, i)| + 1
    decreases |s| - i
  {
    if i < |s| {
      if MatchAt(s, pat, i) {
        GapsFromCount(s, pat, i + |pat|, i + |pat|);
      } else {
        GapsFromCount(s, pat, g, i + 1);
      }
    }
  }

  lemma JoinCons(first: string, rest: seq<string>, sep: string)
    requires |rest| >= 1
    ensures Join([first] + rest, sep) == first + sep + Join(rest, sep)
  {
    assert ([first] + rest)[1..] == rest;
  }

  lemma SliceSplit(s: string, g: nat, i: nat, e: nat)
    requires g <= i <= e <= |s|
    ensures s[g..] == s[g..i] + s[i..e] + s[e..]
  {
  }

  lemma {:induction false} GapsFromJoinPattern(s: string, pat: string, g: nat, i: nat)
    requires pat != [] && g <= i <= |s|
    ensures Join(GapsFrom(s, pat, g, i), pat) == s[g..]
    decreases |s| - i
  {
    if i < |s| {
      if MatchAt(s, pat, i) {
        var e := i + |pat|;
        GapsFromJoinPattern(s, pat, e, e);
        JoinPatternAtMatch(s, pat, g, i);
      } else {
        GapsFromJoinPattern(s, pat, g, i + 1);
      }
    }
  }

  /** The step of GapsFromJoinPattern at a match. */
  lemma JoinPatternAtMatch(s: string, pat: string, g: nat, i: nat)
    requires pat != [] && g <= i < |s| && MatchAt(s, pat, i)
    requires Join(GapsFrom(s, pat, i + |pat|, i + |pat|), pat) == s[i + |pat|..]
    ensures Join(GapsFrom(s, pat, g, i), pat) == s[g..]
  {
    var e := i + |pat|;
    var rest := GapsFrom(s, pat, e, e);
    assert GapsFrom(s, pat, g, i) == [s[g..i]] + rest;
    JoinCons(s[g..i], rest, pat);
    SliceSplit(s, g, i, e);
  }

  lemma SliceSnoc(s: string, g: nat, i: nat, r: string)
    requires g <= i < |s|
    ensures s[g..i + 1] + r == s[g..i] + ([s[i]] + r)
  {
    assert s[g..i + 1] == s[g..i] + [s[i]];
  }

  lemma {:induction false} GapsFromJoinReplacement(s: string, pat: string, rep: string, g: nat, i: nat)
    requires pat != [] && g <= i <= |s|
    ensures Join(GapsFrom(s, pat, g, i), rep) == s[g..i] + ReplaceFrom(s, pat, rep, i)
    decreases |s| - i
  {
    if i < |s| {
      if MatchAt(s, pat, i) {
        var e := i + |pat|;
        GapsFromJoinReplacement(s, pat, rep, e, e);
        var rest := GapsFrom(s, pat, e, e);
        assert GapsFrom(s, pat, g, i) == [s[g..i]] + rest;
        assert ReplaceFrom(s, pat, rep, i) == rep + ReplaceFrom(s, pat, rep, e);
        JoinCons(s[g..i], rest, rep);
        assert s[e..e] == [];
      } else {
        GapsFromJoinReplacement(s, pat, rep, g, i + 1);
        var r := ReplaceFrom(s, pat, rep, i + 1);
        assert ReplaceFrom(s, pat, rep, i) == [s[i]] + r;
        SliceSnoc(s, g, i, r);
      }
    }
  }

  /** Count equals replacements, and nothing else changes: s splits into
      CountMatches + 1 gaps separated by pat, and the replaced text is the same
      gaps separated by rep. */
  lemma ReplaceAllDecomposition(s: string, pat: string, rep: string)
    requires pat != []
    ensures |Gaps(s, pat)| == CountMatches(s, pat) + 1
    ensures Join(Gaps(s, pat), pat) == s
    ensures Join(Gaps(s, pat), rep) == ReplaceAll(s, pat, rep)
  {
    GapsFromCount(s, pat, 0, 0);
    GapsFromJoinPattern(s, pat, 0, 0);
    GapsFromJoinReplacement(s, pat, rep, 0, 0);
  }

  /** A pass that finds no match leaves the text as it was. */
  lemma ReplaceAllWithoutMatches(s: string, pat: string, rep: string)
    requires pat != []
    ensures CountMatches(s, pat) == 0 ==> ReplaceAll(s, pat, rep) == s
  {
    ReplaceAllDecomposition(s, pat, rep);
  }

  /** The scan reports nothing exactly when nothing matches. */
  lemma CountZeroIffClean(s: string, pat: string)
    requires pat != []
    ensures CountMatches(s, pat) == 0 <==> Clean(s, pat)
  {
    var r := Occurrences(s, pat);
    if r != [] {
      OccurrencesFromSound(s, pat, 0, 0);
    }
    forall p: nat | MatchAt(s, pat, p) ensures r != [] {
      OccurrencesFromFirst(s, pat, 0, p);
    }
  }

  // ---------------------------------------------------------------------
  // Word boundaries of a member-access pattern.
  // ---------------------------------------------------------------------

  /** Characters of `<root>.<name>` inside s: only the dot is not a word character. */
  lemma AccessChars(s: string, j: nat, root: string, name: string)
    requires IsWord(root) && IsWord(name)
    requires j + |Access(root, name)| <= |s| && s[j..j + |Access(root, name)|] == Access(root, name)
    ensures forall t :: j <= t < j + |Access(root, name)| ==> (IsWordChar(s[t]) <==> t != j + |root|)
  {
    var a := Access(root, name);
    forall t | j <= t < j + |a| ensures IsWordChar(s[t]) <==> t != j + |root| {
      assert s[t] == a[t - j];
      if t - j < |root| {
        assert a[t - j] == root[t - j];
      } else if t - j > |root| {
        assert a[t - j] == name[t - j - |root| - 1];
      }
    }
  }

  /** The root and the name of an occurrence of `<root>.<name>` inside s. */
  lemma AccessRuns(s: string, j: nat, root: string, name: string)
    requires j + |Access(root, name)| <= |s| && s[j..j + |Access(root, name)|] == Access(root, name)
    ensures s[j..j + |root|] == root && s[j + |root| + 1..j + |Access(root, name)|] == name
  {
    var a := Access(root, name);
    assert s[j..j + |root|] == a[..|root|];
    assert s[j + |root| + 1..j + |a|] == a[|root| + 1..];
  }

  /** The word boundaries of the pattern: `<root>.<name>` matches exactly where
      it is neither preceded nor followed by a word character. */
  lemma AccessMatchAt(s: string, root: string, name: string, i: nat)
    requires IsWord(root) && IsWord(name)
    ensures var a := Access(root, name);
      MatchAt(s, a, i) <==>
        i + |a| <= |s| && s[i..i + |a|] == a &&
        (i == 0 || !IsWordChar(s[i - 1])) && (i + |a| == |s| || !IsWordChar(s[i + |a|]))
  {
    var a := Access(root, name);
    if i + |a| <= |s| && s[i..i + |a|] == a {
      AccessChars(s, i, root, name);
      assert IsWordChar(s[i]) && IsWordChar(s[i + |a| - 1]);
    }
  }

  lemma PartChars(s: string, o: nat, m: string)
    requires o + |m| <= |s| && s[o..o + |m|] == m
    ensures forall t :: 0 <= t < |m| ==> s[o + t] == m[t]
  {
    forall t | 0 <= t < |m| ensures s[o + t] == m[t] {
      assert s[o..o + |m|][t] == s[o + t];
    }
  }

  lemma PartWindow(s: string, o: nat, m: string, j: nat, e: nat)
    requires j <= e <= |m| && o + |m| <= |s| && s[o..o + |m|] == m
    ensures s[o + j..o + e] == m[j..e]
  {
    PartChars(s, o, m);
  }

  /** `\b` before a word character of a part m of s that starts at o is `\b`
      there in m alone, when m does not start with a word character glued to
      what precedes it. */
  lemma EmbedStart(s: string, o: nat, m: string, j: nat)
    requires j < |m| && o + |m| <= |s| && s[o..o + |m|] == m && IsWordChar(m[j])
    requires o == 0 || !IsWordChar(m[0])
    ensures IsBoundary(s, o + j) == IsBoundary(m, j)
  {
    PartChars(s, o, m);
  }

  /** `\b` after a word character of a part m of s that starts at o is `\b`
      there in m alone, when m does not end with a word character glued to
      what follows it. */
  lemma EmbedEnd(s: string, o: nat, m: string, e: nat)
    requires 0 < e <= |m| && o + |m| <= |s| && s[o..o + |m|] == m && IsWordChar(m[e - 1])
    requires o + |m| == |s| || !IsWordChar(m[|m| - 1])
    ensures IsBoundary(s, o + e) == IsBoundary(m, e)
  {
    PartChars(s, o, m);
  }

  /** A window placed inside a part m of s that starts at o matches in s exactly
      when it matches in m alone, provided the edges of m that have neighbours
      in s are not word characters. */
  lemma Embed(s: string, o: nat, m: string, pat: string, j: nat)
    requires pat != [] && IsWordChar(pat[0]) && IsWordChar(pat[|pat| - 1])
    requires j + |pat| <= |m| && o + |m| <= |s| && s[o..o + |m|] == m
    requires o == 0 || !IsWordChar(m[0])
    requires o + |m| == |s| || !IsWordChar(m[|m| - 1])
    ensures MatchAt(s, pat, o + j) <==> MatchAt(m, pat, j)
  {
    var e := j + |pat|;
    PartWindow(s, o, m, j, e);
    if m[j..e] == pat {
      assert m[j] == pat[0] by {
        assert m[j..e][0] == m[j];
      }
      assert m[e - 1] == pat[|pat| - 1] by {
        assert m[j..e][|pat| - 1] == m[e - 1];
      }
      EmbedStart(s, o, m, j);
      EmbedEnd(s, o, m, e);
    }
  }

  /** Where a `<root>.<name>` window (from j to e, dot at jd) can sit relative
      to another one (from x0 to x1, dot at xd) that it overlaps, knowing only
      which characters are word characters. */
  lemma StraddlePositions(s: string, j: nat, jd: nat, e: nat, x0: nat, xd: nat, x1: nat)
    requires j < jd && jd + 1 < e <= |s| && x0 < xd && xd + 1 < x1 <= |s|
    requires forall t :: j <= t < e ==> (IsWordChar(s[t]) <==> t != jd)
    requires forall t :: x0 <= t < x1 ==> (IsWordChar(s[t]) <==> t != xd)
    requires j == 0 || !IsWordChar(s[j - 1])
    requires e == |s| || !IsWordChar(s[e])
    requires x0 == 0 || !IsWordChar(s[x0 - 1])
    requires x1 == |s| || !IsWordChar(s[x1])
    requires j < x1 && x0 < e
    ensures (j == x0 && jd == xd && e == x1) || (jd + 1 == x0 && e == xd) || (j == xd + 1 && jd == x1)
  {
    assert !IsWordChar(s[jd]) && !IsWordChar(s[xd]);
  }

  /** The boundary conditions at the two ends of a match of a member-access pattern. */
  lemma AccessMatchEnds(s: string, root: string, name: string, j: nat)
    requires IsWord(root) && IsWord(name) && MatchAt(s, Access(root, name), j)
    ensures j == 0 || !IsWordChar(s[j - 1])
    ensures j + |Access(root, name)| == |s| || !IsWordChar(s[j + |Access(root, name)|])
  {
    AccessChars(s, j, root, name);
  }

  /** The three placements StraddlePositions leaves, read back as equalities
      between the word runs of the two patterns. */
  lemma StraddleRuns(s: string, j: nat, jd: nat, e: nat, x0: nat, xd: nat, x1: nat,
                     qr: string, qn: string, xr: string, xn: string)
    requires j <= jd < e <= |s| && x0 <= xd < x1 <= |s|
    requires s[j..jd] == qr && s[jd + 1..e] == qn && s[x0..xd] == xr && s[xd + 1..x1] == xn
    requires (j == x0 && jd == xd && e == x1) || (jd + 1 == x0 && e == xd) || (j == xd + 1 && jd == x1)
    ensures (qr == xr && qn == xn) || qn == xr || qr == xn
  {
  }

  /** An occurrence of `<root>.<name>` at j with non-word characters (or the
      ends of s) on both sides. */
  ghost predicate Delimited(s: string, root: string, name: string, j: nat) {
    j + |Access(root, name)| <= |s| && s[j..j + |Access(root, name)|] == Access(root, name) &&
    (j == 0 || !IsWordChar(s[j - 1])) &&
    (j + |Access(root, name)| == |s| || !IsWordChar(s[j + |Access(root, name)|]))
  }

  /** Two overlapping delimited occurrences of member-access patterns either
      coincide or meet at a dot, one's name running into the other's root. */
  lemma OverlapPositions(s: string, xr: string, xn: string, x0: nat, qr: string, qn: string, j: nat)
    requires IsWord(xr) && IsWord(xn) && IsWord(qr) && IsWord(qn)
    requires Delimited(s, xr, xn, x0) && Delimited(s, qr, qn, j)
    requires j < x0 + |Access(xr, xn)| && x0 < j + |Access(qr, qn)|
    ensures var jd, e, xd, x1 := j + |qr|, j + |Access(qr, qn)|, x0 + |xr|, x0 + |Access(xr, xn)|;
      (j == x0 && jd == xd && e == x1) || (jd + 1 == x0 && e == xd) || (j == xd + 1 && jd == x1)
  {
    AccessChars(s, j, qr, qn);
    AccessChars(s, x0, xr, xn);
    StraddlePositions(s, j, j + |qr|, j + |Access(qr, qn)|, x0, x0 + |xr|, x0 + |Access(xr, xn)|);
  }

  /** Two overlapping delimited occurrences of member-access patterns are aligned. */
  lemma OverlapAligned(s: string, xr: string, xn: string, x0: nat, qr: string, qn: string, j: nat)
    requires IsWord(xr) && IsWord(xn) && IsWord(qr) && IsWord(qn)
    requires Delimited(s, xr, xn, x0) && Delimited(s, qr, qn, j)
    requires j < x0 + |Access(xr, xn)| && x0 < j + |Access(qr, qn)|
    ensures (qr == xr && qn == xn) || qn == xr || qr == xn
  {
    OverlapPositions(s, xr, xn, x0, qr, qn, j);
    AccessRuns(s, j, qr, qn);
    AccessRuns(s, x0, xr, xn);
    StraddleRuns(s, j, j + |qr|, j + |Access(qr, qn)|, x0, x0 + |xr|, x0 + |Access(xr, xn)|, qr, qn, xr, xn);
  }

  /** A match of `<qr>.<qn>` in a + `<xr>.<xn>` + b whose window overlaps the
      middle part can only be the middle part itself, its root read as a name
      after a dot that ends a, or its name read as a root before a dot that
      starts b. */
  lemma StraddleAligned(a: string, xr: string, xn: string, b: string, qr: string, qn: string, j: nat)
    requires IsWord(xr) && IsWord(xn) && IsWord(qr) && IsWord(qn)
    requires a == [] || !IsWordChar(a[|a| - 1])
    requires b == [] || !IsWordChar(b[0])
    requires j < |a| + |Access(xr, xn)| && |a| < j + |Access(qr, qn)|
    ensures MatchAt(a + Access(xr, xn) + b, Access(qr, qn), j) ==>
      (qr == xr && qn == xn) || qn == xr || qr == xn
  {
    var s := a + Access(xr, xn) + b;
    if MatchAt(s, Access(qr, qn), j) {
      var x1 := |a| + |Access(xr, xn)|;
      assert s[|a|..x1] == Access(xr, xn);
      assert |a| > 0 ==> s[|a| - 1] == a[|a| - 1];
      assert x1 < |s| ==> s[x1] == b[0];
      AccessMatchEnds(s, qr, qn, j);
      OverlapAligned(s, xr, xn, |a|, qr, qn, j);
    }
  }

  /** A window of a + x + b that lies wholly in a matches exactly when it
      matches in a. */
  lemma SandwichLeft(a: string, x: string, b: string, q: string, j: nat)
    requires q != [] && IsWordChar(q[0]) && IsWordChar(q[|q| - 1])
    requires a == [] || !IsWordChar(a[|a| - 1])
    requires j + |q| <= |a|
    ensures MatchAt(a + x + b, q, j) <==> MatchAt(a, q, j)
  {
    var s := a + x + b;
    assert s[..|a|] == a;
    Embed(s, 0, a, q, j);
  }

  /** A window of a + x + b that lies wholly in b matches exactly when it
      matches in b. */
  lemma SandwichRight(a: string, x: string, b: string, q: string, j: nat)
    requires q != [] && IsWordChar(q[0]) && IsWordChar(q[|q| - 1])
    requires b == [] || !IsWordChar(b[0])
    requires |a| + |x| <= j
    ensures MatchAt(a + x + b, q, j) <==> MatchAt(b, q, j - |a| - |x|)
  {
    var s := a + x + b;
    if j + |q| <= |s| {
      assert s[|a| + |x|..|s|] == b;
      Embed(s, |a| + |x|, b, q, j - |a| - |x|);
    }
  }

  /** A match of `<qr>.<qn>` in a + `<xr>.<xn>` + b lies wholly in a or wholly
      in b, when the word runs of the two patterns cannot line up. */
  lemma SandwichMatch(a: string, xr: string, xn: string, b: string, qr: string, qn: string, j: nat)
    requires IsWord(xr) && IsWord(xn) && IsWord(qr) && IsWord(qn)
    requires !(qr == xr && qn == xn) && qn != xr && qr != xn
    requires a == [] || !IsWordChar(a[|a| - 1])
    requires b == [] || !IsWordChar(b[0])
    ensures var x, q := Access(xr, xn), Access(qr, qn);
      MatchAt(a + x + b, q, j) <==>
        (j + |q| <= |a| && MatchAt(a, q, j)) ||
        (|a| + |x| <= j && MatchAt(b, q, j - |a| - |x|))
  {
    var x, q := Access(xr, xn), Access(qr, qn);
    if j + |q| <= |a| || |a| + |x| <= j {
      assert q[0] == qr[0] && q[|q| - 1] == qn[|qn| - 1];
      if j + |q| <= |a| {
        SandwichLeft(a, x, b, q, j);
      } else {
        SandwichRight(a, x, b, q, j);
      }
    } else {
      StraddleAligned(a, xr, xn, b, qr, qn, j);
    }
  }

  /** Matches of `<qr>.<qn>` in a + `<xr>.<xn>` + b are exactly those in a and those
      in b, when the word runs of the two patterns cannot line up. */
  lemma Sandwich(a: string, xr: string, xn: string, b: string, qr: string, qn: string)
    requires IsWord(xr) && IsWord(xn) && IsWord(qr) && IsWord(qn)
    requires !(qr == xr && qn == xn) && qn != xr && qr != xn
    requires a == [] || !IsWordChar(a[|a| - 1])
    requires b == [] || !IsWordChar(b[0])
    ensures Clean(a + Access(xr, xn) + b, Access(qr, qn)) <==> Clean(a, Access(qr, qn)) && Clean(b, Access(qr, qn))
  {
    var x, q := Access(xr, xn), Access(qr, qn);
    var s := a + x + b;
    forall j: nat ensures MatchAt(s, q, j) ==> !Clean(a, q) || !Clean(b, q) {
      SandwichMatch(a, xr, xn, b, qr, qn, j);
    }
    forall j: nat ensures MatchAt(a, q, j) ==> !Clean(s, q) {
      SandwichMatch(a, xr, xn, b, qr, qn, j);
    }
    forall j: nat ensures MatchAt(b, q, j) ==> !Clean(s, q) {
      SandwichMatch(a, xr, xn, b, qr, qn, |a| + |x| + j);
    }
  }

  /** The gaps left by a scan for a member-access pattern: every gap that follows
      a match starts with a non-word character, every gap that precedes one ends
      with a non-word character, and only the first and the last may be empty. */
  ghost predicate GapShape(gaps: seq<string>) {
    (forall k :: 0 < k < |gaps| && gaps[k] != [] ==> !IsWordChar(gaps[k][0])) &&
    (forall k :: 0 <= k < |gaps| - 1 && gaps[k] != [] ==> !IsWordChar(gaps[k][|gaps[k]| - 1])) &&
    (forall k :: 0 < k < |gaps| - 1 ==> gaps[k] != [])
  }

  /** Matches of `<qr>.<qn>` in the gaps joined by `<xr>.<xn>` are exactly the
      matches inside the gaps. */
  lemma {:induction false} JoinClean(gaps: seq<string>, xr: string, xn: string, qr: string, qn: string)
    requires |gaps| >= 1 && GapShape(gaps)
    requires IsWord(xr) && IsWord(xn) && IsWord(qr) && IsWord(qn)
    requires !(qr == xr && qn == xn) && qn != xr && qr != xn
    ensures Clean(Join(gaps, Access(xr, xn)), Access(qr, qn)) <==>
      forall k :: 0 <= k < |gaps| ==> Clean(gaps[k], Access(qr, qn))
    decreases |gaps|
  {
    if |gaps| > 1 {
      var x, q := Access(xr, xn), Access(qr, qn);
      var tail := gaps[1..];
      assert GapShape(tail);
      JoinClean(tail, xr, xn, qr, qn);
      var b := Join(tail, x);
      assert b == [] || !IsWordChar(b[0]) by {
        if |tail| > 1 {
          assert tail[0] != [];
          assert b[0] == tail[0][0];
        }
      }
      Sandwich(gaps[0], xr, xn, b, qr, qn);
      assert Join(gaps, x) == gaps[0] + x + b;
      assert forall k :: 0 < k < |gaps| ==> gaps[k] == tail[k - 1];
    }
  }

  /** A match of a pattern that starts and ends with word characters starts
      and ends with word characters of s. */
  lemma MatchWordEnds(s: string, pat: string, i: nat)
    requires pat != [] && IsWordChar(pat[0]) && IsWordChar(pat[|pat| - 1])
    requires MatchAt(s, pat, i)
    ensures IsWordChar(s[i]) && IsWordChar(s[i + |pat| - 1])
  {
    var e := i + |pat|;
    assert s[i..e][0] == s[i] && s[i..e][|pat| - 1] == s[e - 1];
  }

  /** Clean gaps put after a clean gap are all clean. */
  lemma CleanCons(first: string, rest: seq<string>, pat: string)
    requires Clean(first, pat) && forall k :: 0 <= k < |rest| ==> Clean(rest[k], pat)
    ensures forall k :: 0 <= k < |[first] + rest| ==> Clean(([first] + rest)[k], pat)
  {
    var gaps := [first] + rest;
    assert forall k :: 0 < k < |gaps| ==> gaps[k] == rest[k - 1];
  }

  /** A gap that ends before a match, put in front of gaps that have the gap shape. */
  lemma GapShapeCons(first: string, rest: seq<string>)
    requires |rest| >= 1 && GapShape(rest)
    requires rest[0] != [] ==> !IsWordChar(rest[0][0])
    requires |rest| > 1 ==> rest[0] != []
    requires first != [] ==> !IsWordChar(first[|first| - 1])
    ensures GapShape([first] + rest)
  {
    var gaps := [first] + rest;
    assert forall k :: 0 < k < |gaps| ==> gaps[k] == rest[k - 1];
  }

  lemma {:induction false} GapsFromShape(s: string, pat: string, g: nat, i: nat)
    requires pat != [] && IsWordChar(pat[0]) && IsWordChar(pat[|pat| - 1])
    requires g <= i <= |s|
    requires g > 0 ==> IsWordChar(s[g - 1]) && (g == |s| || !IsWordChar(s[g]))
    ensures GapShape(GapsFrom(s, pat, g, i))
    ensures var gaps := GapsFrom(s, pat, g, i);
      (g > 0 && gaps[0] != [] ==> !IsWordChar(gaps[0][0])) &&
      (g > 0 && |gaps| > 1 ==> gaps[0] != [])
    decreases |s| - i
  {
    if i < |s| {
      if MatchAt(s, pat, i) {
        var e := i + |pat|;
        MatchWordEnds(s, pat, i);
        GapsFromShape(s, pat, e, e);
        var first := s[g..i];
        assert first != [] ==> first[|first| - 1] == s[i - 1];
        assert g > 0 ==> g < i;
        GapShapeCons(first, GapsFrom(s, pat, e, e));
      } else {
        GapsFromShape(s, pat, g, i + 1);
      }
    }
  }

  /** The gap that ends where a scan stops (at a match or at the end) holds no match. */
  lemma GapClean(s: string, pat: string, g: nat, i: nat)
    requires pat != [] && IsWordChar(pat[0]) && IsWordChar(pat[|pat| - 1])
    requires g <= i <= |s|
    requires g > 0 ==> IsWordChar(s[g - 1]) && (g == |s| || !IsWordChar(s[g]))
    requires i < |s| ==> IsWordChar(s[i]) && (i == 0 || !IsWordChar(s[i - 1]))
    requires forall p: nat :: g <= p < i ==> !MatchAt(s, pat, p)
    ensures Clean(s[g..i], pat)
  {
    var first := s[g..i];
    forall j: nat ensures !MatchAt(first, pat, j) {
      if j + |pat| <= |first| {
        Embed(s, g, first, pat, j);
      }
    }
  }

  lemma {:induction false} GapsFromClean(s: string, pat: string, g: nat, i: nat)
    requires pat != [] && IsWordChar(pat[0]) && IsWordChar(pat[|pat| - 1])
    requires g <= i <= |s|
    requires g > 0 ==> IsWordChar(s[g - 1]) && (g == |s| || !IsWordChar(s[g]))
    requires forall p: nat :: g <= p < i ==> !MatchAt(s, pat, p)
    ensures forall k :: 0 <= k < |GapsFrom(s, pat, g, i)| ==> Clean(GapsFrom(s, pat, g, i)[k], pat)
    decreases |s| - i
  {
    if i == |s| {
      GapClean(s, pat, g, i);
      assert s[g..i] == s[g..];
    } else if MatchAt(s, pat, i) {
      var e := i + |pat|;
      MatchWordEnds(s, pat, i);
      GapClean(s, pat, g, i);
      GapsFromClean(s, pat, e, e);
      CleanCons(s[g..i], GapsFrom(s, pat, e, e), pat);
    } else {
      GapsFromClean(s, pat, g, i + 1);
    }
  }

  /** The gaps of a scan for a member-access pattern have the gap shape and
      contain no match of it. */
  lemma GapsShapeClean(s: string, root: string, name: string)
    requires IsWord(root) && IsWord(name)
    ensures GapShape(Gaps(s, Access(root, name)))
    ensures forall k :: 0 <= k < |Gaps(s, Access(root, name))| ==> Clean(Gaps(s, Access(root, name))[k], Access(root, name))
  {
    var pat := Access(root, name);
    assert pat[0] == root[0] && pat[|pat| - 1] == name[|name| - 1];
    GapsFromShape(s, pat, 0, 0);
    GapsFromClean(s, pat, 0, 0);
  }

  /** After `<root>.<name>` is replaced by `<root>.<newName>`, nothing matches
      `<root>.<name>` any more. */
  lemma ReplaceAllClears(s: string, root: string, name: string, newName: string)
    requires IsWord(root) && IsWord(name) && IsWord(newName)
    requires newName != name && name != root && newName != root
    ensures Clean(ReplaceAll(s, Access(root, name), Access(root, newName)), Access(root, name))
  {
    var pat, rep := Access(root, name), Access(root, newName);
    ReplaceAllDecomposition(s, pat, rep);
    GapsShapeClean(s, root, name);
    JoinClean(Gaps(s, pat), root, newName, root, name);
  }

  /** Replacing `<root>.<name>` by `<root>.<newName>` creates no match of another
      pattern `<qr>.<qn>` whose word runs cannot line up with either. */
  lemma ReplaceAllKeepsClean(s: string, root: string, name: string, newName: string, qr: string, qn: string)
    requires IsWord(root) && IsWord(name) && IsWord(newName) && IsWord(qr) && IsWord(qn)
    requires !(qr == root && qn == name) && !(qr == root && qn == newName)
    requires qn != root && qr != name && qr != newName
    requires Clean(s, Access(qr, qn))
    ensures Clean(ReplaceAll(s, Access(root, name), Access(root, newName)), Access(qr, qn))
  {
    var pat, rep := Access(root, name), Access(root, newName);
    ReplaceAllDecomposition(s, pat, rep);
    GapsShapeClean(s, root, name);
    JoinClean(Gaps(s, pat), root, name, qr, qn);
    JoinClean(Gaps(s, pat), root, newName, qr, qn);
  }

  // ---------------------------------------------------------------------
  // Counts: a replacement keeps the number of matches of every other
  // pattern whose word runs cannot line up with it.
  // ---------------------------------------------------------------------

  /** A scan that finds no match between i and m reaches m and goes on from there. */
  lemma {:induction false} ScanSkip(s: string, q: string, i: nat, m: nat)
    requires q != [] && i <= m <= |s|
    requires forall j: nat :: i <= j < m ==> !MatchAt(s, q, j)
    ensures OccurrencesFrom(s, q, i) == OccurrencesFrom(s, q, m)
    decreases m - i
  {
    if i < m {
      ScanSkip(s, q, i + 1, m);
    }
  }

  /** A scan of s from i that agrees with a scan of its prefix part a on every
      position before |a| finds what the scan of a finds, then goes on from |a|. */
  lemma {:induction false} ScanPrefix(s: string, a: string, q: string, i: nat)
    requires q != [] && i <= |a| <= |s|
    requires forall j: nat :: i <= j < |a| ==> (MatchAt(s, q, j) <==> MatchAt(a, q, j))
    ensures |OccurrencesFrom(s, q, i)| == |OccurrencesFrom(a, q, i)| + |OccurrencesFrom(s, q, |a|)|
    decreases |a| - i
  {
    if i < |a| {
      if MatchAt(a, q, i) {
        ScanPrefix(s, a, q, i + |q|);
      } else {
        ScanPrefix(s, a, q, i + 1);
      }
    }
  }

  /** A scan of s from o + i, where s ends with b at offset o and the positions
      agree, finds as many matches as the scan of b from i. */
  lemma {:induction false} ScanSuffix(s: string, b: string, q: string, o: nat, i: nat)
    requires q != [] && o + |b| == |s| && i <= |b|
    requires forall j: nat :: i <= j ==> (MatchAt(s, q, o + j) <==> MatchAt(b, q, j))
    ensures |OccurrencesFrom(s, q, o + i)| == |OccurrencesFrom(b, q, i)|
    decreases |b| - i
  {
    if i < |b| {
      if MatchAt(b, q, i) {
        if i + |q| <= |b| {
          ScanSuffix(s, b, q, o, i + |q|);
        }
      } else {
        ScanSuffix(s, b, q, o, i + 1);
      }
    }
  }

  /** Before the middle part, a + `<xr>.<xn>` + b matches `<qr>.<qn>` where a does. */
  lemma SandwichBefore(s: string, a: string, xr: string, xn: string, b: string, qr: string, qn: string)
    requires IsWord(xr) && IsWord(xn) && IsWord(qr) && IsWord(qn)
    requires !(qr == xr && qn == xn) && qn != xr && qr != xn
    requires a == [] || !IsWordChar(a[|a| - 1])
    requires b == [] || !IsWordChar(b[0])
    requires s == a + Access(xr, xn) + b
    ensures forall j: nat :: 0 <= j < |a| ==> (MatchAt(s, Access(qr, qn), j) <==> MatchAt(a, Access(qr, qn), j))
  {
    forall j: nat | j < |a| ensures MatchAt(s, Access(qr, qn), j) <==> MatchAt(a, Access(qr, qn), j) {
      SandwichMatch(a, xr, xn, b, qr, qn, j);
    }
  }

  /** No match of `<qr>.<qn>` starts inside the middle part. */
  lemma SandwichInside(s: string, a: string, xr: string, xn: string, b: string, qr: string, qn: string)
    requires IsWord(xr) && IsWord(xn) && IsWord(qr) && IsWord(qn)
    requires !(qr == xr && qn == xn) && qn != xr && qr != xn
    requires a == [] || !IsWordChar(a[|a| - 1])
    requires b == [] || !IsWordChar(b[0])
    requires s == a + Access(xr, xn) + b
    ensures forall j: nat :: |a| <= j < |a| + |Access(xr, xn)| ==> !MatchAt(s, Access(qr, qn), j)
  {
    forall j: nat | |a| <= j < |a| + |Access(xr, xn)| ensures !MatchAt(s, Access(qr, qn), j) {
      SandwichMatch(a, xr, xn, b, qr, qn, j);
    }
  }

  /** After the middle part, a + `<xr>.<xn>` + b matches `<qr>.<qn>` where b does. */
  lemma SandwichAfter(s: string, a: string, xr: string, xn: string, b: string, qr: string, qn: string)
    requires IsWord(xr) && IsWord(xn) && IsWord(qr) && IsWord(qn)
    requires !(qr == xr && qn == xn) && qn != xr && qr != xn
    requires a == [] || !IsWordChar(a[|a| - 1])
    requires b == [] || !IsWordChar(b[0])
    requires s == a + Access(xr, xn) + b
    ensures forall j: nat :: 0 <= j ==>
      (MatchAt(s, Access(qr, qn), |a| + |Access(xr, xn)| + j) <==> MatchAt(b, Access(qr, qn), j))
  {
    forall j: nat ensures MatchAt(s, Access(qr, qn), |a| + |Access(xr, xn)| + j) <==> MatchAt(b, Access(qr, qn), j) {
      SandwichMatch(a, xr, xn, b, qr, qn, |a| + |Access(xr, xn)| + j);
    }
  }

  /** The scan of a + `<xr>.<xn>` + b finds the matches of a, then goes on from |a|. */
  lemma ScanBefore(s: string, a: string, xr: string, xn: string, b: string, qr: string, qn: string)
    requires IsWord(xr) && IsWord(xn) && IsWord(qr) && IsWord(qn)
    requires !(qr == xr && qn == xn) && qn != xr && qr != xn
    requires a == [] || !IsWordChar(a[|a| - 1])
    requires b == [] || !IsWordChar(b[0])
    requires s == a + Access(xr, xn) + b
    ensures |OccurrencesFrom(s, Access(qr, qn), 0)| ==
      CountMatches(a, Access(qr, qn)) + |OccurrencesFrom(s, Access(qr, qn), |a|)|
  {
    SandwichBefore(s, a, xr, xn, b, qr, qn);
    ScanPrefix(s, a, Access(qr, qn), 0);
  }

  /** The scan of a + `<xr>.<xn>` + b passes over the middle part without a match. */
  lemma ScanInside(s: string, a: string, xr: string, xn: string, b: string, qr: string, qn: string)
    requires IsWord(xr) && IsWord(xn) && IsWord(qr) && IsWord(qn)
    requires !(qr == xr && qn == xn) && qn != xr && qr != xn
    requires a == [] || !IsWordChar(a[|a| - 1])
    requires b == [] || !IsWordChar(b[0])
    requires s == a + Access(xr, xn) + b
    ensures OccurrencesFrom(s, Access(qr, qn), |a|) == OccurrencesFrom(s, Access(qr, qn), |a| + |Access(xr, xn)|)
  {
    SandwichInside(s, a, xr, xn, b, qr, qn);
    ScanSkip(s, Access(qr, qn), |a|, |a| + |Access(xr, xn)|);
  }

  /** After the middle part, the scan of a + `<xr>.<xn>` + b finds the matches of b. */
  lemma ScanAfter(s: string, a: string, xr: string, xn: string, b: string, qr: string, qn: string)
    requires IsWord(xr) && IsWord(xn) && IsWord(qr) && IsWord(qn)
    requires !(qr == xr && qn == xn) && qn != xr && qr != xn
    requires a == [] || !IsWordChar(a[|a| - 1])
    requires b == [] || !IsWordChar(b[0])
    requires s == a + Access(xr, xn) + b
    ensures |OccurrencesFrom(s, Access(qr, qn), |a| + |Access(xr, xn)|)| == CountMatches(b, Access(qr, qn))
  {
    SandwichAfter(s, a, xr, xn, b, qr, qn);
    ScanSuffix(s, b, Access(qr, qn), |a| + |Access(xr, xn)|, 0);
  }

  /** The matches of `<qr>.<qn>` in a + `<xr>.<xn>` + b are counted by counting
      those in a and those in b, when the word runs of the two patterns cannot
      line up. */
  lemma CountSandwich(a: string, xr: string, xn: string, b: string, qr: string, qn: string)
    requires IsWord(xr) && IsWord(xn) && IsWord(qr) && IsWord(qn)
    requires !(qr == xr && qn == xn) && qn != xr && qr != xn
    requires a == [] || !IsWordChar(a[|a| - 1])
    requires b == [] || !IsWordChar(b[0])
    ensures CountMatches(a + Access(xr, xn) + b, Access(qr, qn)) ==
      CountMatches(a, Access(qr, qn)) + CountMatches(b, Access(qr, qn))
  {
    var s := a + Access(xr, xn) + b;
    ScanBefore(s, a, xr, xn, b, qr, qn);
    ScanInside(s, a, xr, xn, b, qr, qn);
    ScanAfter(s, a, xr, xn, b, qr, qn);
  }

  /** The matches of a pattern in each of the parts, added up. */
  ghost function SumCounts(parts: seq<string>, q: string): nat
    requires q != []
    decreases |parts|
  {
    if parts == [] then 0 else CountMatches(parts[0], q) + SumCounts(parts[1..], q)
  }

  /** Matches of `<qr>.<qn>` in the gaps joined by `<xr>.<xn>` are counted by
      counting them in each gap. */
  lemma {:induction false} JoinCount(gaps: seq<string>, xr: string, xn: string, qr: string, qn: string)
    requires |gaps| >= 1 && GapShape(gaps)
    requires IsWord(xr) && IsWord(xn) && IsWord(qr) && IsWord(qn)
    requires !(qr == xr && qn == xn) && qn != xr && qr != xn
    ensures CountMatches(Join(gaps, Access(xr, xn)), Access(qr, qn)) == SumCounts(gaps, Access(qr, qn))
    decreases |gaps|
  {
    var q := Access(qr, qn);
    if |gaps| == 1 {
      assert gaps[1..] == [];
    } else {
      var x := Access(xr, xn);
      var tail := gaps[1..];
      assert GapShape(tail);
      JoinCount(tail, xr, xn, qr, qn);
      var b := Join(tail, x);
      assert b == [] || !IsWordChar(b[0]) by {
        if |tail| > 1 {
          assert tail[0] != [];
          assert b[0] == tail[0][0];
        }
      }
      CountSandwich(gaps[0], xr, xn, b, qr, qn);
      assert Join(gaps, x) == gaps[0] + x + b;
    }
  }

  /** Replacing `<root>.<name>` by `<root>.<newName>` keeps the number of matches
      of another pattern `<qr>.<qn>` whose word runs cannot line up with either. */
  lemma ReplaceAllKeepsCount(s: string, root: string, name: string, newName: string, qr: string, qn: string)
    requires IsWord(root) && IsWord(name) && IsWord(newName) && IsWord(qr) && IsWord(qn)
    requires !(qr == root && qn == name) && !(qr == root && qn == newName)
    requires qn != root && qr != name && qr != newName
    ensures CountMatches(ReplaceAll(s, Access(root, name), Access(root, newName)), Access(qr, qn)) ==
      CountMatches(s, Access(qr, qn))
  {
    var pat, rep := Access(root, name), Access(root, newName);
    ReplaceAllDecomposition(s, pat, rep);
    GapsShapeClean(s, root, name);
    JoinCount(Gaps(s, pat), root, name, qr, qn);
    JoinCount(Gaps(s, pat), root, newName, qr, qn);
  }
}
